=== FILE: README.md ===
# AI 3D Generator add-on for Blender — a Dafny model

The add-on sends a text prompt or an image to one of three AI 3D vendors
(Tripo, Meshy, ModelsLab). It then polls the vendor until the job finishes,
downloads the model and imports it into the Blender scene. It also keeps
three small JSON-backed stores: a generation history, a batch queue and a
library of presets.

This project models the decision logic of that add-on as pure Dafny functions
and proves properties of it.

- **Vendor clients** (`provider_base.dfy`, `tripo.dfy`, `meshy.dfy`,
  `modelslab.dfy`):
  - which request each client sends: URL, bearer key, payload fields, upload;
  - how the client turns the vendor's answer into the add-on's normalised
    dicts: the submission result `{job_id | error}` and the poll result
    `{job_id, status, model_url?, error?}`;
  - the verdict of a connection test.
- **Operators** (`operators.dfy`): `Generate from Text`, `Generate from Image`,
  the modal polling tick, `Check Status`, `Cancel`, `Test Provider` and
  `Validate API Key`. Each one maps the scene, the preferences and what the
  outside world answered to an `Outcome`:
  - the scene afterwards;
  - the report shown to the user;
  - the calls made (HTTP requests, model downloads);
  - the value `execute`/`modal` returned, or the exception that escaped.
- **Downloader** (`downloader.dfy`): the temporary file's extension, the
  importer chosen for a format, and the order of the steps in
  `download_and_import_model`, including the cleanup that always runs.
- **Stores** (`history.dfy`, `batch.dfy`, `presets.dfy`, over the list
  helpers in `records.dfy`). Each store is its data value, and every
  operation is a function from the old data to the new.

Shared pieces:
- `json.dfy` holds JSON values, with Python's truthiness, `dict.get` and `or`.
- `text.dfy` holds the string functions the add-on relies on: `lower`,
  `rstrip`, `strip`, slicing, `str(int)`, `basename` and `splitext`.

HTTP is an input to the model. An answered request is `Answered(body)`, with
the decoded JSON body. A request that raised is `Raised(err)`, with the text of
the `requests` exception. A connection test receives either the status code or
the exception. Whether a file exists, the current time and generated batch ids
are also inputs.

The Tripo and ModelsLab clients report the vendor status "succeeded" as
"completed"; the Meshy client does not. The operators use every client as
written, Meshy's included (`Meshy.PollAsWritten`), so a Meshy task that
succeeds keeps the polling loop going (`Operators.MeshySucceededStallsPolling`).
The corrected Meshy client is `Meshy.Poll`, and the difference is listed under
Findings.

## Model

| member | source | states |
|---|---|---|
| ProviderBase.NewClient | providers/base_client.py:17-26 | The client keeps the key as given. Its base URL is the given URL with the trailing run of `/` removed and nothing else: a prefix of the input, followed in the input only by slashes, and not itself ending in `/`. |
| ProviderBase.NewClientIdempotent | providers/base_client.py:26 | Building a client from an already normalised URL leaves the URL unchanged. |
| ProviderBase.NewClientCutsOnlySlashes | providers/base_client.py:26 | When a URL ends in exactly `n` slashes, the normalised URL is the input with exactly those `n` characters cut off. |
| ProviderBase.StatusOf | providers/tripo_client.py:132 | A missing status reads as "unknown" and a string status is lowercased. A status that is not a string makes `.lower()` raise. |
| ProviderBase.PollError | providers/tripo_client.py:150-155 | A poll whose request raised reports status "error" and the error "Poll error: " followed by the exception text. |
| ProviderBase.FlatPoll | providers/tripo_client.py:121-155 | Normalisation of a top-level status. The result is "completed" exactly when the vendor said "completed" or "succeeded", and the result is never "succeeded". Any other status passes through lowercased. A URL is only reported with "completed", and only when it is truthy. An error is reported exactly for "failed"/"error", taken from `error_message`, default "Unknown error". A non-object body or non-string status raises. |
| ProviderBase.StyleFor | providers/tripo_client.py:36-46 | The style map of every client sends each style to itself, known or not. |
| ProviderBase.QualityTier | providers/meshy_client.py:43-47 | Quality 1-3 maps to "low", 4-6 to "medium", 7-9 to "high" and 10 to "ultra". Anything outside 1..10 gets the default "medium". |
| ProviderBase.QualityTierMonotonic | providers/modelslab_client.py:43-47 | On the slider range, a higher quality never gets a lower tier. |
| ProviderBase.ClassifyProbe | providers/tripo_client.py:157-176 | A test succeeds exactly on status 200. The messages are: 401 gives the invalid-key message; another code gives "<Vendor> API error: <code>"; a connection error gives the base URL; any other exception gives its text. |
| ProviderBase.ProbeMessagesDistinguish | providers/modelslab_client.py:168-187 | Two tests with the same message fall into the same case. Two rejected status codes with the same message are the same code. |
| Tripo.TextRequest | providers/tripo_client.py:43-56 | The text job is a POST to `/api/v1/generate` under the client's key. Its payload has exactly type `text_to_3d`, the prompt, the style, the quality as an integer and the format. |
| Tripo.ImageRequest | providers/tripo_client.py:75-101 | The image job uploads the file to `/api/v1/generate` with type `image_to_3d`. `remove_background: true` is present exactly when background removal is asked for. |
| Tripo.Accepted | providers/tripo_client.py:59-63 | An object body is accepted. Its job id is `job_id` when that is truthy, otherwise `id`. |
| Tripo.GenerateText | providers/tripo_client.py:31-69 | A raised request becomes the error "Tripo API error: …" with no job. An answer is read by `Accepted`. |
| Tripo.GenerateImage | providers/tripo_client.py:71-119 | The image is opened before any request. A missing file is reported as "Image file not found: <path>". An existing file that cannot be opened raises out of the client with the error's text. Once the image is open, a raised request becomes "Tripo API error: …" and an answer is read by `Accepted`. |
| Tripo.PollRequest | providers/tripo_client.py:124-128 | A poll is a GET of `/api/v1/jobs/<job id>` under the client's key. |
| Tripo.Poll | providers/tripo_client.py:139-144 | A completed Tripo job's URL is `model_url`, else `download_url`, when truthy. No other status carries a URL. |
| Tripo.ProbeRequest | providers/tripo_client.py:160-164 | The connection test is a GET of `/api/v1/user`. |
| Meshy.TextRequest | providers/meshy_client.py:49-67 | The text job posts `object_prompt`, the style, `art_style` set to the quality tier, `model_type` "gaussian_splatting", an empty `negative_prompt` and `ai_model` "meshy-4". `texture_richness: high` is present exactly when the format is glb or gltf in any case. |
| Meshy.ImageRequest | providers/meshy_client.py:88-113 | The image job uploads the file with the style, an empty `object_prompt` and `ai_model` "meshy-4-turbo". Quality and format are not sent. `background_removal` is present exactly when asked for. |
| Meshy.Accepted | providers/meshy_client.py:70-76 | The job id is `result.id`. The answer is accepted only when the body and its `result` are objects. |
| Meshy.GenerateText | providers/meshy_client.py:30-82 | A raised request becomes "Meshy API error: …". An answer is read by `Accepted`. |
| Meshy.GenerateImage | providers/meshy_client.py:84-133 | The image is opened before any request. A missing file is reported as "Image file not found: <path>". An existing file that cannot be opened raises out of the client with the error's text. Once the image is open, a raised request becomes "Meshy API error: …" and an answer is read by `Accepted`. |
| Meshy.ScanUrls | providers/meshy_client.py:158-164 | The candidate loop finds the first URL that mentions glb or gltf in any case, after only non-preferred strings. It reports "no match" when every candidate is a non-preferred string, and stops at the first non-string. |
| Meshy.PickUrl | providers/meshy_client.py:155-164 | The chosen URL is the first preferred candidate, else the first candidate. A non-string met before a preferred URL raises. |
| Meshy.PrefersGlbExample | providers/meshy_client.py:158-161 | Of an obj URL and a glb URL, the glb one is chosen. |
| Meshy.PickUrlOfStrings | providers/meshy_client.py:155-164 | Over any non-empty list of URL strings, the chosen URL is the first one mentioning glb or gltf, or the first URL when none does. |
| Meshy.PollRequest | providers/meshy_client.py:138-142 | A poll is a GET of `/openapi/v1/tasks/<job id>`. |
| Meshy.PollAsWritten | providers/meshy_client.py:135-175 | The status is `result.status`, only lowercased. A URL is reported only for "completed", picked from a truthy `model_urls`. An error is reported exactly for "failed"/"error". The call raises exactly when the body or its `result` is not an object, the status is not a string, or a completed task's `model_urls` holds a non-string before any preferred URL. |
| Meshy.SucceededIsNotRenamed | providers/meshy_client.py:147-154 | A vendor "SUCCEEDED" is passed on as "succeeded", with no URL. |
| Meshy.Poll | providers/meshy_client.py:135-175 | The corrected poll reports "completed" exactly when the vendor said "completed" or "succeeded", and never "succeeded". It raises on the same answers as `PollAsWritten`, with "succeeded" counted as completed. On every other answer it agrees with `PollAsWritten`. |
| Meshy.SucceededIsCompleted | providers/meshy_client.py:154-164 | The corrected poll reports a "SUCCEEDED" task as completed, with its URL. |
| Meshy.ProbeRequest | providers/meshy_client.py:180-184 | The connection test is a GET of `/openapi/v1/user/profile`. |
| ModelsLab.TextRequest | providers/modelslab_client.py:49-61 | The text job posts the prompt, the style, the quality tier and the format to `/api/v1/3dverse/text-to-3d`. |
| ModelsLab.ImageRequest | providers/modelslab_client.py:97-112 | The image job uploads the file with the style, tier and format. `remove_background: "true"` is present exactly when asked for. |
| ModelsLab.Accepted | providers/modelslab_client.py:64-69 | The job id is the first truthy of `id`, `job_id`, `task_id`, else the last one read. It is truthy exactly when one of them is. |
| ModelsLab.GenerateText | providers/modelslab_client.py:30-75 | A raised request becomes "ModelsLab API error: …". An answer is read by `Accepted`. |
| ModelsLab.GenerateImage | providers/modelslab_client.py:77-131 | The image is opened before any request. A missing file is reported as "Image file not found: <path>". An existing file that cannot be opened raises out of the client with the error's text. Once the image is open, a raised request becomes "ModelsLab API error: …" and an answer is read by `Accepted`. |
| ModelsLab.PollRequest | providers/modelslab_client.py:136-140 | A poll is a GET of `/api/v1/3dverse/status/<job id>`. |
| ModelsLab.Poll | providers/modelslab_client.py:151-155 | A completed ModelsLab job's URL is `model_url`, else `output_url`, when truthy. |
| ModelsLab.SucceededExample | providers/modelslab_client.py:151-155 | `{"status": "succeeded", "model_url": "https://x/y.glb"}` is reported as completed with that URL. |
| ModelsLab.ProbeRequest | providers/modelslab_client.py:171-175 | The connection test is a GET of `/api/v1/user/info`. |
| Downloader.FirstOccurring | downloader.py:68-77 | Returns the first candidate found in the URL, and none before it is found. |
| Downloader.SniffExtension | downloader.py:66-77 | The guessed extension is one of the four. `.glb` wins whenever present. The others are chosen in the order obj, fbx, stl, each only if an earlier one is absent. A URL with none of them gets `.glb`. |
| Downloader.Extension | downloader.py:62-77 | A non-empty file type gives its lowercased extension. Otherwise the extension is guessed from the URL. |
| Downloader.ImporterFor | downloader.py:36-46 | The glTF importer handles exactly glb/gltf, and obj, fbx and stl each have their own importer, all case-insensitive. Any other format has no importer. |
| Downloader.DownloadAndImport | downloader.py:17-52 | An empty URL raises before downloading. A transfer that raises passes its error on; a transfer that leaves no file raises "RuntimeError: Failed to download model file". The temporary file is removed exactly when the download produced it, whether or not the import raised. A known format runs its importer on the file, and the call succeeds exactly when that importer did not raise. An unknown format raises "Unsupported format". |
| Downloader.SniffedFormatIsImportable | downloader.py:36-77 | Every extension guessed from a URL names a format that has an importer. |
| Operators.ProviderNamed | operators.py:43-56 | Exactly the names TRIPO, MESHY and MODELSLAB select a provider. |
| Operators.ProviderClient | operators.py:20-56 | A client exists exactly when the preferences can be read and the provider is known. It is built from that provider's key and URL. |
| Operators.StyleName | operators.py:99-105 | The scene style maps to one of the four vendor styles. Unknown styles get "realistic". |
| Operators.FormatName | operators.py:108-114 | A known format maps to its lowercase name. Unknown formats get "glb". |
| Operators.TrackSubmission | operators.py:124-142 | The modal starts exactly when a non-empty string job id came back. Only then are the job id and generation type stored. An error or a missing id is reported and the scene is left unchanged. |
| Operators.GenerateText | operators.py:66-142 | Checks run in order: blank prompt, no client, empty key, each with its own report. A request is sent exactly when all three pass, and it is the selected client's text request. The outcome is then what `TrackSubmission` makes of that client's reading of the reply. The scene only changes when polling starts, with a non-empty job id and type "text". |
| Operators.GenerateImage | operators.py:210-275 | Checks run in order: missing image path, no client, empty key, each with its own report. Exactly one image request is sent, and only when all checks pass and the image file opened: the client opens the file before it posts. The outcome is then what `TrackSubmission` makes of the client's answer. An image that was not found or raised on opening gives that client's error with no call made. The scene only changes when polling starts, with a non-empty job id and type "image". |
| Operators.PollTick | operators.py:150-175 | With no job the tick finishes without a call. Otherwise the first call polls the stored job through the client as written, and there are at most two calls. The tick finishes exactly on a terminal status. When the client raises, the tick makes exactly the one poll call, raises the client's error and notes no failure. A download of the reported URL follows exactly when the job completed with a truthy URL. A failure is noted exactly for "failed"/"error", with the reported error or "Unknown error". |
| Operators.Modal | operators.py:144-148 | Only timer events poll. Any other event passes through with no call. |
| Operators.TicksUntilStop | operators.py:144-175 | Counts the ticks that pass through before the first tick that does not. |
| Operators.StatusDecidesTick | operators.py:161-175 | A tick finishes exactly when the reply normalises to a terminal status, and otherwise keeps polling. |
| Operators.TicksStopAtFirstFinish | operators.py:144-175 | The loop stops at the first tick that does not pass through. |
| Operators.PollingStopsAtFirstTerminal | operators.py:161-175 | Over a sequence of vendor replies, polling stops exactly at the first terminal status and never earlier. |
| Operators.SubmittedJobIsPolled | operators.py:133-159 | The job id a successful submission stores is the one the next tick polls, through the same client. |
| Operators.SubmittedImageJobIsPolled | operators.py:266-292 | When image generation starts polling, the image opened and the client returned the stored job id. The next tick polls that job through the same client. |
| Operators.UnopenedImageMakesNoCall | providers/tripo_client.py:75-114 | An image that was not found or raised on opening contacts no provider and leaves the scene unchanged. Past the operator's checks, a missing file is reported as "Image file not found: <path>" and an open error is raised. |
| Operators.CompletedPollFetches | operators.py:163-168 | A poll normalised to "completed" with a URL ends the loop and downloads that URL. |
| Operators.MeshySucceededStallsPolling | operators.py:161-175 | As written, a Meshy task the vendor reports as SUCCEEDED makes the tick poll once and pass through, with no download, so the loop never ends. |
| Operators.MeshySucceededEndsPolling | operators.py:163-168 | With the corrected Meshy client answering the poll, a SUCCEEDED task ends the tick with a download of its model. |
| Operators.CheckStatus | operators.py:363-393 | The scene is never changed. With no job, a warning is given and no call made; with no client, an error. A completed job is reported and its URL downloaded, named after the stored generation type, exactly when the URL is truthy. "pending"/"processing" are reported as in progress with the status, a failure as an error with the reported detail or "Unknown error", and any other status as "Status: <status>". |
| Operators.CheckStatusPollsLikeTick | operators.py:377-384 | Check Status makes the same calls as a timer tick of the operator the stored generation type names, and raises exactly when that tick does. |
| Operators.Cancel | operators.py:425-432 | Cancel forgets the job and generation type, contacts no provider and finishes. |
| Operators.CancelStopsPolling | operators.py:153-156 | After Cancel, the next tick finishes without polling. |
| Operators.TestProvider | operators.py:335-353 | A probe is sent exactly when a client with a non-empty key exists. An empty key gives the error "API key not set in preferences" and no call. The probe's message is reported, as info exactly on status 200. |
| Operators.CheckKey | operators.py:467-503 | Validation goes ahead exactly when the preferences are readable, the provider is known and its key is not blank. Each refusal has its own report. |
| Operators.ValidateApiKeyAsWritten | operators.py:505-513 | Every key that passes the checks ends in an exception, because the method it calls does not exist. No provider is contacted. |
| Operators.ValidateApiKeyAsWrittenNeverValidates | operators.py:506 | The Tripo key "tsk_123" is never validated. |
| Operators.ValidateApiKey | operators.py:505-513 | The corrected operator runs the connection test after the checks, and reports its verdict prefixed with the provider. |
| Operators.ValidateApiKeyAgreesWithTestProvider | operators.py:346-351 | For the scene's provider and a non-blank key, validation makes the same probe as Test Provider. It reports the same verdict, prefixed with the provider's name. |
| Records.Filter | history.py:113-123 | A list comprehension with a condition keeps exactly the elements that pass, in their original order. |
| Records.FindFirst | history.py:104-107 | The first-match loop finds the least index that passes, or reports that none does. |
| Records.FindFirstSurvivesFilter | history.py:125-130 | Filtering out only elements a search cannot match keeps whether a match exists, and the match found is the same element. |
| Records.Bump | history.py:154 | `counts[k] = counts.get(k, 0) + 1` raises k's count by one, leaves every other key's count unchanged, and adds one to the total. |
| Records.BumpKeys | history.py:154 | Bumping adds exactly the bumped key and keeps keys distinct. |
| Records.Tally | history.py:151-164 | Counting a column gives distinct keys, exactly the values that occur. |
| Records.TallyCounts | history.py:151-164 | Each count is the number of occurrences, and the counts add up to the column's length. |
| History.NewEntry | history.py:63-78 | An entry has exactly the id, the timestamp and the twelve documented fields. Each field is taken from the info dict when present, and defaulted otherwise. |
| History.DefaultValues | history.py:66-77 | Provider defaults to "Unknown", type to "unknown", quality to 0 and status to "pending". The rest default to empty. |
| History.AddGeneration | history.py:48-84 | The entry appended is the one built from the info dict and timestamp, numbered one past the counter. Earlier entries are unchanged, the counter grows by one, and every documented key that all old entries had, all new entries have. |
| History.AddAll | history.py:63-81 | A run of additions appends one entry per call, numbered consecutively from the counter. |
| History.ClearedHistoryRenumbers | history.py:132-135 | After clearing, numbering starts again at 1. |
| History.Overlay | history.py:96-97 | The update sets the status and then the extra fields. Every other field is kept. |
| History.UpdateGeneration | history.py:86-100 | Needs a job id only on the entries the loop reads. Only the first entry with the job id is updated and returned. With no match, nothing changes and None is returned. The counter is kept. |
| History.GetGeneration | history.py:102-107 | Needs a job id only on the entries the loop reads. Returns the first entry with the job id, or None exactly when there is none. |
| History.UpdateThenGet | history.py:94-107 | A lookup after an update returns the updated entry. |
| History.ByProvider | history.py:113-115 | Keeps exactly the entries of that provider, in order, each as often as it occurs. |
| History.ByProviderAfterAdd | history.py:113-115 | After an addition, the entries of a provider are the old ones, followed by the new entry exactly when it is that provider's. |
| History.ByType | history.py:117-119 | Keeps exactly the entries of that type, in order, each as often as it occurs. |
| History.Completed | history.py:121-123 | Keeps exactly the completed entries, in order, each as often as it occurs. |
| History.DeleteGeneration | history.py:125-130 | Removes every entry with the job id and keeps every other entry as often as it occurred, in order. The counter is kept. |
| History.DeletedGenerationIsGone | history.py:125-130 | After deleting a job id, looking it up finds nothing. |
| History.DeleteKeepsOtherJobs | history.py:125-130 | Deleting a job id leaves the lookup of every other job id unchanged. |
| History.ClearHistory | history.py:132-135 | Clearing empties the list and resets the counter. |
| History.Column | history.py:152-163 | Reads one field per entry, with its default. |
| History.CountBy | history.py:151-164 | Each breakdown counts every value as often as it occurs, and sums to the number of entries. |
| History.Statistics | history.py:137-166 | Needs only a `status` on every entry. Gives the total, the completed/failed/pending counts (which never exceed the total), and the three breakdowns with their defaults. |
| Batch.NewBatchJob | batch_generator.py:16-32 | A new batch is pending, with as many items as configs and nothing done. |
| Batch.FromDict | batch_generator.py:48-57 | Gives a batch exactly when all eight keys are present with the expected JSON types. It reads every field back and recomputes the item count from the configs. |
| Batch.DictRoundTrip | batch_generator.py:34-57 | `from_dict(to_dict(b))` gives `b` back with the item count recomputed. |
| Batch.DictRoundTripExact | batch_generator.py:34-57 | A batch whose count matches its configs survives the round trip unchanged. |
| Batch.CreateBatch | batch_generator.py:94-119 | The new batch is pending with the given configs, id, name and time. It goes last and becomes the current batch. |
| Batch.GetBatch | batch_generator.py:121-126 | Returns the first batch with the id (with its count recomputed), or None exactly when there is none. |
| Batch.CreatedBatchIsFound | batch_generator.py:94-126 | A batch created under a new id is the one a lookup of that id finds. Its progress counts every config as pending, none done, at 0 percent, and no item status is pending. |
| Batch.UpdateBatchStatus | batch_generator.py:132-149 | Only the first batch with the id gets the status and the counters that were passed. Everything else is unchanged. |
| Batch.PadTo | batch_generator.py:165-167 | Padding makes the list long enough for the index, keeps the old slots and fills the new ones with None. |
| Batch.UpdateItemStatus | batch_generator.py:151-171 | In the first batch with the id, pads and sets the slot, with Python's negative indexing. An index before the start raises IndexError. Other slots and batches are unchanged. |
| Batch.UpdatedItemLeavesPending | batch_generator.py:151-171 | After setting a slot to a value, that slot is no longer pending. The other old None slots and the newly padded slots are pending, and nothing else is. |
| Batch.DeleteBatch | batch_generator.py:173-180 | Removes every batch with the id, keeping every other batch as often as it occurred, in order. The current batch is forgotten exactly when it was the one removed. |
| Batch.Percent | batch_generator.py:202 | The percentage is truncated toward zero. It lies in 0..100 when 0 ≤ done ≤ total, brackets done/total when done ≥ 0 and the total is positive, and is 0 when the total is not positive. |
| Batch.GetBatchProgress | batch_generator.py:182-210 | Progress reports the batch's counters and recomputed total, and pending is the rest. When 0 ≤ done, the percentage brackets done/total, and it lies in 0..100 when also done ≤ total. |
| Batch.AddToBatchAsWritten | batch_generator.py:212-229 | As written, the first matching batch gets the new config twice and two more items. Each later matching batch gets it once. Other batches are unchanged. |
| Batch.AddToBatchAsWrittenDuplicates | batch_generator.py:219-227 | A one-config batch grows to three configs, the added one twice, when one config is added. |
| Batch.AddToBatch | batch_generator.py:212-229 | As intended, every matching batch gets the config once and its count becomes the new length. All else is unchanged. |
| Batch.AddToBatchGrowsTotal | batch_generator.py:212-229 | Adding an item grows the progress total by exactly one. |
| Batch.NoneIndices | batch_generator.py:242-244 | The None slots are listed in ascending order. |
| Batch.NoneIndicesComplete | batch_generator.py:242-244 | No None slot is missed. |
| Batch.NoneSlotPastConfigs | batch_generator.py:244 | A None slot past the end of the configs makes the lookup fail. |
| Batch.PendingOf | batch_generator.py:241-246 | Returns `(i, configs[i])` for every None slot, in order, or IndexError exactly when some None slot lies past the configs. |
| Batch.GetPendingItems | batch_generator.py:231-246 | An unknown batch has no pending items. Otherwise the pending items are those of its first batch with the id. |
| Presets.ListFor | presets.py:116 | Type "text" selects the text list. Every other type selects the image list. |
| Presets.CreateTextPreset | presets.py:46-70 | The new text preset has exactly its six fields and goes last. The image list is untouched. |
| Presets.CreateImagePreset | presets.py:72-96 | The new image preset has exactly its six fields and goes last. The text list is untouched. |
| Presets.GetPresetByName | presets.py:106-120 | Needs a name only on the presets the loop reads. Returns the first preset with the name in the selected list, or None exactly when there is none. |
| Presets.CreatedTextPresetIsFound | presets.py:59-119 | A preset created under a new name is what looking that name up finds. |
| Presets.CreatedImagePresetIsFound | presets.py:72-119 | An image preset created under a new name is what looking that name up among image presets finds. |
| Presets.UpdatePreset | presets.py:122-139 | Needs a name only on the presets the loop reads. The updates are merged into the first preset with the name, which is returned. With no match, nothing changes. |
| Presets.UpdateThenGetPreset | presets.py:122-139 | When the updates do not rename the preset, looking its name up afterwards finds the updated preset. |
| Presets.DeletePreset | presets.py:141-156 | Removes every preset with the name from the selected list only, keeping every other preset as often as it occurred, in order. |
| Presets.DeletedPresetIsGone | presets.py:148-155 | After deleting a name, looking it up finds nothing. |
| Presets.DuplicatePreset | presets.py:158-180 | Needs a name only on the presets the lookup reads. Appends a renamed copy of the first preset with the name to the same list and returns it. With no match, nothing changes. |
| Presets.DuplicateThenGet | presets.py:158-180 | When the new name is free, looking it up after duplicating finds the copy. |
| Presets.ImportPresets | presets.py:194-213 | A merge appends the imported lists after the existing ones. Without merge, the imported data replaces everything. An unreadable file changes nothing. |
| Presets.MergeKeepsFoundPreset | presets.py:117-119 | A lookup stops at its first match, so presets a merge appends, named or not, are never read: a name found before the merge finds the same preset after it. |
| Presets.MergingNothingChangesNothing | presets.py:194-213 | Merging a file with no presets, or with empty lists, changes nothing. |

## Left out

- HTTP, file reading and writing, JSON parsing and the `_save_*` persistence are not modelled. The answers, file existence, timestamps and batch ids are parameters.
- The singletons (`get_history`, `get_batch_generator`, `get_presets`), the plain readers (`get_all_generations`, `get_all_batches`, `get_text_presets`, `get_image_presets`), `export_presets`, `preferences.py`, `ui_panel.py` and `__init__.py` are not modelled: they are registration, UI layout or plain reads.
- Blender API effects are not modelled: report display, `modal_handler_add`, the importers' renaming of objects, `view_all`. The download is recorded as a `Fetch` call, and the importer as the chosen `Importer`.
- The operators never register a timer, so the modal loop is modelled tick by tick (`Operators.PollTick`), not as a running loop.
- Text.Lower: covers ASCII only. Python's `str.lower` also changes non-ASCII letters. `strip()` whitespace is likewise the ASCII set.
- Batch.GetBatchProgress: computes the percentage with integers. The source computes `int(done / total * 100)` in floating point, so for example 29 of 100 gives 28 there and 29 here.
- Meshy.PickUrl: a `model_urls` that is an object is treated as raising, while Python would iterate its keys. A string is treated as iterating its characters.
- Tripo.Accepted: a response body that is not JSON (where `response.json()` raises) is not modelled. The same holds for Meshy.Accepted and ModelsLab.Accepted.
- History.Statistics: Python's equality of `True` with `1`, and the TypeError from an unhashable dict key in a breakdown, are not modelled.
- History.UpdateGeneration: a KeyError from an entry without `job_id` is excluded by a precondition (`JobsReadable`) that covers only the entries the loop reads, up to and including the first match. The same holds for History.GetGeneration.
- History.DeleteGeneration: a KeyError from an entry without `job_id` is excluded by a precondition (`AllHave(_, "job_id")`), because the list comprehension reads every entry. Every entry the add-on writes has one.
- History.ByProvider: a KeyError from an entry without `provider` is excluded by a precondition (`AllHave(_, "provider")`).
- History.ByType: a KeyError from an entry without `type` is excluded by a precondition (`AllHave(_, "type")`).
- History.Completed: a KeyError from an entry without `status` is excluded by a precondition (`AllHave(_, "status")`). The same holds for History.Statistics, which reads the other fields with defaults.
- Presets.GetPresetByName: a KeyError from a preset without `name` is excluded by a precondition (`NamesReadable`) that covers only the presets the loop reads, up to and including the first match. The same holds for Presets.UpdatePreset and Presets.DuplicatePreset.
- Presets.DeletePreset: a KeyError from a preset without `name` is excluded by a precondition (`Named`), because the list comprehension reads every preset. A merged import can add such presets.
- Batch.FromDict: the stored batch dicts are modelled as typed `BatchJob` records. A stored field of another JSON type is refused instead of copied.
- Batch.CreateBatch: the current batch is modelled by its id only, not by the object.
- Presets.ImportPresets: the imported file is modelled as two optional lists. A file whose top level is not an object, or whose lists are not lists, is not modelled. A replace with a missing key is modelled as an empty list, where the code stores the imported dict as is.

## Findings

| source | as written | input that shows it | evidently intended | confidence | as-written member | corrected member |
|---|---|---|---|---|---|---|
| operators.py:506 | `client.validate_api_key()` is called, but no client class defines it, so every key that passes the checks raises AttributeError | provider "TRIPO" with key "tsk_123" | run the connection test and report its verdict under the provider's name | not executed; high | Operators.ValidateApiKeyAsWritten | Operators.ValidateApiKey |
| batch_generator.py:219-227 | `get_batch` rebuilds the batch around the stored config list itself, so appending to the rebuilt batch also appends to the store, and the loop then appends a second time | a batch with configs `[c0]`, add `c1`: configs become `[c0, c1, c1]`, 3 items | the config appended once, 2 items | not executed; high | Batch.AddToBatchAsWritten | Batch.AddToBatch |
| providers/meshy_client.py:147-154 | the Meshy status is only lowercased, so "SUCCEEDED" is passed on as "succeeded". That is not a terminal status, so polling never stops and no URL is picked | `{"result": {"status": "SUCCEEDED", "model_urls": [u]}}` | "succeeded" reported as "completed" with a URL, as the other two clients do | not executed; medium | Operators.MeshySucceededStallsPolling | Operators.MeshySucceededEndsPolling |

=== FILE: batch.dfy ===
/**
 The batch queue (`BatchJob`, `BatchGenerator`) with file loading and saving
 stripped away. The stored job dicts are modelled as `BatchJob` records; the
 dict form matters only where the code converts through it
 (`to_dict` / `from_dict`, and `get_batch`, which rebuilds a `BatchJob` from
 the stored dict).
 */
module Batch {
  import opened Json
  import opened Wrappers
  import opened Records

  datatype BatchJob = BatchJob(
    jobId: string,
    name: string,
    configs: seq<Value>,
    createdAt: string,
    status: string,
    totalItems: int,
    completedItems: int,
    failedItems: int,
    itemStatuses: seq<Value>)

  /** `BatchJob.__init__`; the creation time is an input. */
  function NewBatchJob(jobId: string, name: string, configs: seq<Value>, createdAt: string): (b: BatchJob)
    ensures b.jobId == jobId && b.name == name && b.configs == configs && b.createdAt == createdAt
    ensures b.status == "pending"
    ensures b.totalItems == |configs|
    ensures b.completedItems == 0 && b.failedItems == 0
    ensures b.itemStatuses == []
  {
    BatchJob(jobId, name, configs, createdAt, "pending", |configs|, 0, 0, [])
  }

  // ---------------------------------------------------------------------
  // The dict form

  /** `to_dict`. */
  function ToDict(b: BatchJob): Record {
    map[
      "job_id" := Str(b.jobId),
      "name" := Str(b.name),
      "generation_configs" := Arr(b.configs),
      "created_at" := Str(b.createdAt),
      "status" := Str(b.status),
      "total_items" := Int(b.totalItems),
      "completed_items" := Int(b.completedItems),
      "failed_items" := Int(b.failedItems),
      "item_statuses" := Arr(b.itemStatuses)]
  }

  /** The dict holds the eight keys `from_dict` reads, each of the JSON type its field has. */
  predicate Readable(d: Record) {
    && "job_id" in d && d["job_id"].Str? && "name" in d && d["name"].Str?
    && "generation_configs" in d && d["generation_configs"].Arr? && "created_at" in d && d["created_at"].Str?
    && "status" in d && d["status"].Str? && "completed_items" in d && d["completed_items"].Int?
    && "failed_items" in d && d["failed_items"].Int? && "item_statuses" in d && d["item_statuses"].Arr?
  }

  /**
   `from_dict`: every field but `total_items` is read back, and
   `total_items` is recomputed from the configs. A missing key is the
   KeyError the code raises; a field of another JSON type is also refused.
   */
  function FromDict(d: Record): (r: Option<BatchJob>)
    ensures r.Some? <==> Readable(d)
    ensures r.Some? ==> r.value.totalItems == |r.value.configs|
    ensures "job_id" !in d || "item_statuses" !in d || "generation_configs" !in d ==> r.None?
    ensures r.Some? ==> Get(d, "status") == Str(r.value.status) && Get(d, "job_id") == Str(r.value.jobId)
    ensures r.Some? ==> Get(d, "generation_configs") == Arr(r.value.configs) && Get(d, "item_statuses") == Arr(r.value.itemStatuses)
    ensures r.Some? ==> Get(d, "completed_items") == Int(r.value.completedItems) && Get(d, "failed_items") == Int(r.value.failedItems)
    ensures r.Some? ==> Get(d, "name") == Str(r.value.name) && Get(d, "created_at") == Str(r.value.createdAt)
  {
    if Readable(d) then
      var configs := d["generation_configs"].items;
      var b := NewBatchJob(d["job_id"].s, d["name"].s, configs, d["created_at"].s);
      Some(b.(status := d["status"].s, completedItems := d["completed_items"].i,
              failedItems := d["failed_items"].i, itemStatuses := d["item_statuses"].items))
    else None
  }

  /** Reading a job back from its dict gives the job again, with the item count recomputed. */
  lemma DictRoundTrip(b: BatchJob)
    ensures FromDict(ToDict(b)) == Some(b.(totalItems := |b.configs|))
  {
    var d := ToDict(b);
    assert d["job_id"] == Str(b.jobId) && d["name"] == Str(b.name);
    assert d["generation_configs"] == Arr(b.configs) && d["created_at"] == Str(b.createdAt);
    assert d["status"] == Str(b.status) && d["completed_items"] == Int(b.completedItems);
    assert d["failed_items"] == Int(b.failedItems) && d["item_statuses"] == Arr(b.itemStatuses);
  }

  /** A job whose count matches its configs survives the round trip unchanged. */
  lemma DictRoundTripExact(b: BatchJob)
    requires b.totalItems == |b.configs|
    ensures FromDict(ToDict(b)) == Some(b)
  {
    DictRoundTrip(b);
  }

  // ---------------------------------------------------------------------
  // The store

  /** `jobs_data['jobs']` and the job id of `current_batch`. */
  datatype Batches = Batches(jobs: seq<BatchJob>, current: Option<string>)

  /** The store of a missing or unreadable jobs file. */
  const NoBatches := Batches([], None)

  function HasId(jobId: string): BatchJob -> bool {
    (b: BatchJob) => b.jobId == jobId
  }

  /** Index `i` holds the first batch with that id. */
  predicate FirstWithId(jobs: seq<BatchJob>, jobId: string, i: int) {
    0 <= i < |jobs| && jobs[i].jobId == jobId && forall j :: 0 <= j < i ==> jobs[j].jobId != jobId
  }

  predicate NoId(jobs: seq<BatchJob>, jobId: string) {
    forall j :: 0 <= j < |jobs| ==> jobs[j].jobId != jobId
  }

  /** `create_batch`: the new job goes last and becomes the current batch. The id is an input. */
  function CreateBatch(store: Batches, jobId: string, name: string, configs: seq<Value>, createdAt: string): (r: (Batches, BatchJob))
    ensures r.1 == NewBatchJob(jobId, name, configs, createdAt)
    ensures r.1.status == "pending" && r.1.totalItems == |configs| && r.1.itemStatuses == []
    ensures r.0.jobs == store.jobs + [r.1]
    ensures r.0.current == Some(jobId) && r.1.jobId == jobId
  {
    var b := NewBatchJob(jobId, name, configs, createdAt);
    (Batches(store.jobs + [b], Some(jobId)), b)
  }

  /** `get_batch`: the first job with the id, rebuilt through `from_dict`. */
  function GetBatch(store: Batches, jobId: string): (r: Option<BatchJob>)
    ensures r.None? <==> NoId(store.jobs, jobId)
    ensures forall i :: FirstWithId(store.jobs, jobId, i) ==> r == Some(store.jobs[i].(totalItems := |store.jobs[i].configs|))
  {
    match FindFirst(store.jobs, HasId(jobId))
    case None => None
    case Some(i) =>
      DictRoundTrip(store.jobs[i]);
      FromDict(ToDict(store.jobs[i]))
  }

  // ---------------------------------------------------------------------
  // Updates

  /** Two jobs agree on everything but status and the two counters. */
  predicate SameBatchExceptProgress(a: BatchJob, b: BatchJob) {
    a.(status := b.status, completedItems := b.completedItems, failedItems := b.failedItems) == b
  }

  /**
   `update_batch_status`: the first job with the id gets the status, and the
   counters that are given; the others are left alone.
   */
  function UpdateBatchStatus(store: Batches, jobId: string, status: string, completed: Option<int>, failed: Option<int>): (r: Batches)
    ensures NoId(store.jobs, jobId) ==> r == store
    ensures r.current == store.current && |r.jobs| == |store.jobs|
    ensures forall i :: FirstWithId(store.jobs, jobId, i) ==>
      && r.jobs[i].status == status
      && r.jobs[i].completedItems == (if completed.Some? then completed.value else store.jobs[i].completedItems)
      && r.jobs[i].failedItems == (if failed.Some? then failed.value else store.jobs[i].failedItems)
      && SameBatchExceptProgress(store.jobs[i], r.jobs[i])
      && forall j :: 0 <= j < |store.jobs| && j != i ==> r.jobs[j] == store.jobs[j]
  {
    match FindFirst(store.jobs, HasId(jobId))
    case None => store
    case Some(i) =>
      var b := store.jobs[i];
      var b' := b.(status := status,
                   completedItems := completed.GetOr(b.completedItems),
                   failedItems := failed.GetOr(b.failedItems));
      store.(jobs := store.jobs[i := b'])
  }

  /** `while len(s) <= index: s.append(None)`. */
  function PadTo(s: seq<Value>, index: int): (r: seq<Value>)
    ensures |r| == if index < |s| then |s| else index + 1
    ensures r[..|s|] == s
    ensures forall j :: |s| <= j < |r| ==> r[j] == Null
    decreases index - |s|
  {
    if index < |s| then s else PadTo(s + [Null], index)
  }

  /**
   `update_item_status`: in the first job with the id, the status list is
   padded with None up to the index and the slot is set. A negative index
   counts from the end, as Python indexing does, and one before the start
   raises IndexError. An unknown id changes nothing.
   */
  function UpdateItemStatus(store: Batches, jobId: string, index: int, itemStatus: Value): (r: Result<Batches>)
    ensures NoId(store.jobs, jobId) ==> r == Success(store)
    ensures r.Success? ==> r.value.current == store.current && |r.value.jobs| == |store.jobs|
    ensures forall i :: FirstWithId(store.jobs, jobId, i) ==>
      var old_ := store.jobs[i].itemStatuses;
      && (r.Failure? <==> index < -|old_|)
      && (r.Success? ==>
            var new_ := r.value.jobs[i].itemStatuses;
            && r.value.jobs[i] == store.jobs[i].(itemStatuses := new_)
            && (forall j :: 0 <= j < |store.jobs| && j != i ==> r.value.jobs[j] == store.jobs[j])
            && (index >= 0 ==>
                  && |new_| == (if index < |old_| then |old_| else index + 1)
                  && new_[index] == itemStatus
                  && (forall j :: 0 <= j < |old_| && j != index ==> new_[j] == old_[j])
                  && (forall j :: |old_| <= j < |new_| && j != index ==> new_[j] == Null))
            && (index < 0 ==> new_ == old_[|old_| + index := itemStatus]))
  {
    match FindFirst(store.jobs, HasId(jobId))
    case None => Success(store)
    case Some(i) =>
      var b := store.jobs[i];
      var padded := PadTo(b.itemStatuses, index);
      if index >= 0 then
        Success(store.(jobs := store.jobs[i := b.(itemStatuses := padded[index := itemStatus])]))
      else if index >= -|padded| then
        Success(store.(jobs := store.jobs[i := b.(itemStatuses := padded[|padded| + index := itemStatus])]))
      else Failure("IndexError")
  }

  /** `delete_batch`: every job with the id goes, and the current batch is forgotten when it was that one. */
  function DeleteBatch(store: Batches, jobId: string): (r: Batches)
    ensures SubsequenceOf(r.jobs, store.jobs)
    ensures forall b :: b in r.jobs <==> b in store.jobs && b.jobId != jobId
    ensures forall b :: multiset(r.jobs)[b] == if b.jobId != jobId then multiset(store.jobs)[b] else 0
    ensures NoId(r.jobs, jobId)
    ensures r.current.None? <==> store.current.None? || store.current == Some(jobId)
    ensures r.current.Some? ==> r.current == store.current
  {
    var kept := Filter(store.jobs, (b: BatchJob) => b.jobId != jobId);
    assert forall j :: 0 <= j < |kept| ==> kept[j] in kept;
    Batches(kept, if store.current == Some(jobId) then None else store.current)
  }

  // ---------------------------------------------------------------------
  // Progress

  datatype Progress = Progress(total: int, completed: int, failed: int, pending: int, percent: int)

  /**
   `int(done / total * 100) if total > 0 else 0`, in integers: the
   percentage truncated toward zero.
   */
  function Percent(done: int, total: int): (p: int)
    ensures total <= 0 ==> p == 0
    ensures total > 0 && done >= 0 ==> p * total <= done * 100 < (p + 1) * total
    ensures total > 0 && done < 0 ==> p <= 0
    ensures 0 <= done <= total ==> 0 <= p <= 100
  {
    if total <= 0 then 0
    else if done >= 0 then
      var x: nat := done * 100;
      QuotientBounds(x, total);
      QuotientAtMost(x, total, 100);
      x / total
    else
      var x: nat := -done * 100;
      -(x / total)
  }

  /** The truncated quotient brackets the dividend. */
  lemma QuotientBounds(x: nat, y: int)
    requires y > 0
    ensures (x / y) * y <= x < (x / y + 1) * y
  {
    var q, r := x / y, x % y;
    assert x == q * y + r;
    assert (q + 1) * y == q * y + y;
  }

  /** A dividend of at most `k` times the divisor has a quotient of at most `k`. */
  lemma QuotientAtMost(x: nat, y: int, k: nat)
    requires y > 0
    ensures x <= k * y ==> x / y <= k
  {
    QuotientBounds(x, y);
  }

  /**
   `get_batch_progress`: the counters of the first job with the id, the
   total recomputed from its configs, the pending rest, and the share done
   in percent. The percentage is computed in integers (see README).
   */
  function GetBatchProgress(store: Batches, jobId: string): (r: Option<Progress>)
    ensures r.None? <==> NoId(store.jobs, jobId)
    ensures forall i :: FirstWithId(store.jobs, jobId, i) ==>
      && r.Some?
      && r.value.total == |store.jobs[i].configs|
      && r.value.completed == store.jobs[i].completedItems
      && r.value.failed == store.jobs[i].failedItems
    ensures r.Some? ==> r.value.pending + r.value.completed + r.value.failed == r.value.total
    ensures r.Some? && r.value.total == 0 ==> r.value.percent == 0
    ensures r.Some? && 0 <= r.value.completed + r.value.failed <= r.value.total ==> 0 <= r.value.percent <= 100
    ensures r.Some? && r.value.total > 0 && r.value.completed + r.value.failed >= 0 ==>
      r.value.percent * r.value.total <= (r.value.completed + r.value.failed) * 100 < (r.value.percent + 1) * r.value.total
  {
    match GetBatch(store, jobId)
    case None => None
    case Some(b) =>
      var done := b.completedItems + b.failedItems;
      var total := b.totalItems;
      Some(Progress(total, b.completedItems, b.failedItems, total - b.completedItems - b.failedItems, Percent(done, total)))
  }

  /**
   A batch created under a new id is what `get_batch` then finds: it has
   every config as an item, nothing done, a percentage of 0 and no item
   status that `get_pending_items` would report.
   */
  lemma CreatedBatchIsFound(store: Batches, jobId: string, name: string, configs: seq<Value>, createdAt: string)
    requires NoId(store.jobs, jobId)
    ensures var (after, b) := CreateBatch(store, jobId, name, configs, createdAt);
      && GetBatch(after, jobId) == Some(b)
      && GetBatchProgress(after, jobId) == Some(Progress(|configs|, 0, 0, |configs|, 0))
      && NoneIndices(b.itemStatuses, |b.itemStatuses|) == []
  {
    var (after, b) := CreateBatch(store, jobId, name, configs, createdAt);
    assert after.jobs[|store.jobs|] == b;
    assert FirstWithId(after.jobs, jobId, |store.jobs|);
    var p := GetBatchProgress(after, jobId).value;
    assert p.total == |configs| && p.completed == 0 && p.failed == 0;
    assert p.percent == 0 by {
      if p.total > 0 {
        assert p.percent * p.total <= 0 < (p.percent + 1) * p.total;
      }
    }
  }

  // ---------------------------------------------------------------------
  // Adding an item

  /** The item count `add_to_batch` stores: the length of the config list. */
  function WithConfigs(b: BatchJob, configs: seq<Value>): BatchJob {
    b.(configs := configs, totalItems := |configs|)
  }

  /**
   `add_to_batch` as written. `get_batch` rebuilds the first matching job
   around the stored config list itself, so appending to the rebuilt job
   appends to the store, and the loop then appends to every matching job:
   the first one gets the config twice.
   */
  function AddToBatchAsWritten(store: Batches, jobId: string, config: Value): (r: Batches)
    ensures NoId(store.jobs, jobId) ==> r == store
    ensures r.current == store.current && |r.jobs| == |store.jobs|
    ensures forall i :: FirstWithId(store.jobs, jobId, i) ==>
      && r.jobs[i].configs == store.jobs[i].configs + [config, config]
      && r.jobs[i].totalItems == |store.jobs[i].configs| + 2
      && r.jobs[i] == store.jobs[i].(configs := r.jobs[i].configs, totalItems := r.jobs[i].totalItems)
      && forall j :: i < j < |store.jobs| && store.jobs[j].jobId == jobId ==>
           r.jobs[j] == store.jobs[j].(configs := store.jobs[j].configs + [config], totalItems := |store.jobs[j].configs| + 1)
    ensures forall j :: 0 <= j < |store.jobs| && store.jobs[j].jobId != jobId ==> r.jobs[j] == store.jobs[j]
  {
    match FindFirst(store.jobs, HasId(jobId))
    case None => store
    case Some(i) =>
      var aliased := store.jobs[i := WithConfigs(store.jobs[i], store.jobs[i].configs + [config])];
      var jobs := Map(aliased, (b: BatchJob) => if b.jobId == jobId then WithConfigs(b, b.configs + [config]) else b);
      assert jobs[i] == WithConfigs(aliased[i], aliased[i].configs + [config]);
      assert aliased[i].configs + [config] == store.jobs[i].configs + [config, config];
      Batches(jobs, store.current)
  }

  /** A batch of one config grows to three items when one config is added. */
  lemma AddToBatchAsWrittenDuplicates(c0: Value, c1: Value)
    ensures var store := Batches([NewBatchJob("batch_1", "b", [c0], "t")], Some("batch_1"));
      var after := AddToBatchAsWritten(store, "batch_1", c1);
      after.jobs[0].configs == [c0, c1, c1] && after.jobs[0].totalItems == 3
  {
    var store := Batches([NewBatchJob("batch_1", "b", [c0], "t")], Some("batch_1"));
    assert FirstWithId(store.jobs, "batch_1", 0);
    var after := AddToBatchAsWritten(store, "batch_1", c1);
    assert after.jobs[0].configs == [c0] + [c1, c1];
  }

  /**
   `add_to_batch` as intended: every job with the id gets the config once at
   the end, with the item count set to the new length; nothing else changes.
   */
  function AddToBatch(store: Batches, jobId: string, config: Value): (r: Batches)
    ensures NoId(store.jobs, jobId) ==> r == store
    ensures r.current == store.current && |r.jobs| == |store.jobs|
    ensures forall i :: 0 <= i < |store.jobs| && store.jobs[i].jobId == jobId ==>
      && r.jobs[i].configs == store.jobs[i].configs + [config]
      && r.jobs[i].totalItems == |r.jobs[i].configs|
      && r.jobs[i] == store.jobs[i].(configs := r.jobs[i].configs, totalItems := r.jobs[i].totalItems)
    ensures forall i :: 0 <= i < |store.jobs| && store.jobs[i].jobId != jobId ==> r.jobs[i] == store.jobs[i]
  {
    if NoId(store.jobs, jobId) then store
    else Batches(Map(store.jobs, (b: BatchJob) => if b.jobId == jobId then WithConfigs(b, b.configs + [config]) else b), store.current)
  }

  /** Adding an item as intended grows the progress total by exactly one. */
  lemma AddToBatchGrowsTotal(store: Batches, jobId: string, config: Value)
    requires !NoId(store.jobs, jobId)
    ensures GetBatchProgress(AddToBatch(store, jobId, config), jobId).Some?
    ensures GetBatchProgress(AddToBatch(store, jobId, config), jobId).value.total
         == GetBatchProgress(store, jobId).value.total + 1
  {
    var i := FindFirst(store.jobs, HasId(jobId)).value;
    assert FirstWithId(store.jobs, jobId, i);
    var after := AddToBatch(store, jobId, config);
    assert FirstWithId(after.jobs, jobId, i);
  }

  // ---------------------------------------------------------------------
  // Pending items

  /** The indices below `n` whose item status is None, in ascending order. */
  function NoneIndices(statuses: seq<Value>, n: nat): (r: seq<nat>)
    requires n <= |statuses|
    ensures forall k :: 0 <= k < |r| ==> r[k] < n && statuses[r[k]] == Null
    ensures forall k, l :: 0 <= k < l < |r| ==> r[k] < r[l]
  {
    if n == 0 then []
    else
      var before := NoneIndices(statuses, n - 1);
      if statuses[n - 1] == Null then before + [n - 1] else before
  }

  /** No None slot below `n` is missed. */
  lemma {:induction false} NoneIndicesComplete(statuses: seq<Value>, n: nat)
    requires n <= |statuses|
    ensures forall i :: 0 <= i < n && statuses[i] == Null ==> i in NoneIndices(statuses, n)
  {
    if n > 0 {
      NoneIndicesComplete(statuses, n - 1);
      var before := NoneIndices(statuses, n - 1);
      var r := NoneIndices(statuses, n);
      forall i | 0 <= i < n && statuses[i] == Null ensures i in r {
        if i < n - 1 {
          var k :| 0 <= k < |before| && before[k] == i;
          assert r[k] == i;
        } else {
          assert r[|r| - 1] == i;
        }
      }
    }
  }

  /** Every None index is a valid index of the configs. */
  predicate ConfigsCover(none: seq<nat>, configs: seq<Value>) {
    forall k :: 0 <= k < |none| ==> none[k] < |configs|
  }

  /** The loop of `get_pending_items` over one job. */
  method PendingOf(b: BatchJob) returns (r: Result<seq<(nat, Value)>>)
    ensures var none := NoneIndices(b.itemStatuses, |b.itemStatuses|);
      && (r.Success? <==> ConfigsCover(none, b.configs))
      && (r.Success? ==> |r.value| == |none| && forall k :: 0 <= k < |none| ==> r.value[k] == (none[k], b.configs[none[k]]))
      && (r.Failure? ==> r.error == "IndexError")
  {
    var statuses := b.itemStatuses;
    var pending: seq<(nat, Value)> := [];
    ghost var none: seq<nat> := [];
    var i := 0;
    while i < |statuses|
      invariant 0 <= i <= |statuses|
      invariant none == NoneIndices(statuses, i)
      invariant ConfigsCover(none, b.configs)
      invariant |pending| == |none|
      invariant forall k :: 0 <= k < |pending| ==> pending[k] == (none[k], b.configs[none[k]])
    {
      if statuses[i] == Null {
        if i >= |b.configs| {
          NoneSlotPastConfigs(statuses, b.configs, i);
          return Failure("IndexError");
        }
        none := none + [i];
        pending := pending + [(i, b.configs[i])];
      }
      i := i + 1;
    }
    return Success(pending);
  }

  /**
   `get_pending_items`: `(i, configs[i])` for every index of the status list
   holding None, in order; indices past the end of the status list are not
   looked at. A None slot past the end of the configs raises IndexError.
   */
  method GetPendingItems(store: Batches, jobId: string) returns (r: Result<seq<(nat, Value)>>)
    ensures NoId(store.jobs, jobId) ==> r == Success([])
    ensures forall i :: FirstWithId(store.jobs, jobId, i) ==>
      var b := store.jobs[i];
      var none := NoneIndices(b.itemStatuses, |b.itemStatuses|);
      && (r.Success? <==> ConfigsCover(none, b.configs))
      && (r.Success? ==> |r.value| == |none| && forall k :: 0 <= k < |none| ==> r.value[k] == (none[k], b.configs[none[k]]))
      && (r.Failure? ==> r.error == "IndexError")
  {
    var found := GetBatch(store, jobId);
    if found.None? {
      return Success([]);
    }
    ghost var first := FindFirst(store.jobs, HasId(jobId)).value;
    assert FirstWithId(store.jobs, jobId, first);
    r := PendingOf(found.value);
    forall i | FirstWithId(store.jobs, jobId, i) ensures i == first {
    }
  }

  /**
   Setting a slot to a status other than None takes that slot off the
   pending indices; the None padding it adds before the slot becomes
   pending, and every other slot stays as it was.
   */
  lemma UpdatedItemLeavesPending(store: Batches, jobId: string, index: nat, itemStatus: Value, i: nat)
    requires itemStatus != Null
    requires FirstWithId(store.jobs, jobId, i)
    ensures UpdateItemStatus(store, jobId, index, itemStatus).Success?
    ensures var old_ := store.jobs[i].itemStatuses;
      var new_ := UpdateItemStatus(store, jobId, index, itemStatus).value.jobs[i].itemStatuses;
      forall j :: j in NoneIndices(new_, |new_|) <==> j != index && ((0 <= j < |old_| && old_[j] == Null) || |old_| <= j < index)
  {
    var old_ := store.jobs[i].itemStatuses;
    var new_ := UpdateItemStatus(store, jobId, index, itemStatus).value.jobs[i].itemStatuses;
    var none := NoneIndices(new_, |new_|);
    NoneIndicesComplete(new_, |new_|);
    forall j | j in none ensures j != index && ((0 <= j < |old_| && old_[j] == Null) || |old_| <= j < index) {
      var k :| 0 <= k < |none| && none[k] == j;
    }
  }

  /** A None slot at an index the configs do not reach leaves the pending items uncovered. */
  lemma NoneSlotPastConfigs(statuses: seq<Value>, configs: seq<Value>, i: nat)
    requires i < |statuses| && statuses[i] == Null && i >= |configs|
    ensures !ConfigsCover(NoneIndices(statuses, |statuses|), configs)
  {
    var before := NoneIndices(statuses, i);
    var upTo := NoneIndices(statuses, i + 1);
    assert upTo == before + [i];
    NoneIndicesGrow(statuses, i + 1, |statuses|);
    var all := NoneIndices(statuses, |statuses|);
    var k := |before|;
    assert k < |upTo| <= |all|;
    assert all[k] == upTo[k] by {
      assert all[..|upTo|] == upTo;
      assert all[..|upTo|][k] == all[k];
    }
    assert all[k] == i;
  }

  /** The None indices below `m` start with those below `n`. */
  lemma {:induction false} NoneIndicesGrow(statuses: seq<Value>, n: nat, m: nat)
    requires n <= m <= |statuses|
    ensures |NoneIndices(statuses, n)| <= |NoneIndices(statuses, m)|
    ensures NoneIndices(statuses, m)[..|NoneIndices(statuses, n)|] == NoneIndices(statuses, n)
    decreases m - n
  {
    if n < m {
      NoneIndicesGrow(statuses, n, m - 1);
      var a := NoneIndices(statuses, n);
      var b := NoneIndices(statuses, m - 1);
      var c := NoneIndices(statuses, m);
      assert c[..|b|] == b;
      assert c[..|a|] == b[..|a|];
    }
  }
}

=== FILE: downloader.dfy ===
/**
 The decisions of the model downloader: which extension the temporary file
 gets, which host importer handles a format, and the order of the steps of
 `download_and_import_model`, including the cleanup that runs whether or not
 the import raises. The transfer itself and the importers are inputs.
 */
module Downloader {
  import opened Text
  import opened Wrappers

  /** The extensions looked for in a URL, in the order they are tried. */
  const Sniffed: seq<string> := [".glb", ".obj", ".fbx", ".stl"]

  /** The index of the first of `candidates` that occurs in `url`, or `|candidates|`. */
  function FirstOccurring(url: string, candidates: seq<string>): (k: nat)
    ensures k <= |candidates|
    ensures k < |candidates| ==> Contains(url, candidates[k])
    ensures forall j :: 0 <= j < k ==> !Contains(url, candidates[j])
  {
    if |candidates| == 0 then 0
    else if Contains(url, candidates[0]) then 0
    else 1 + FirstOccurring(url, candidates[1..])
  }

  /** The extension guessed from a URL when no format is given: a case-sensitive search. */
  function SniffExtension(url: string): (ext: string)
    ensures ext in Sniffed
    ensures ext != ".glb" ==> Contains(url, ext) && !Contains(url, ".glb")
    ensures Contains(url, ".glb") ==> ext == ".glb"
    ensures !Contains(url, ".glb") && Contains(url, ".obj") ==> ext == ".obj"
    ensures !Contains(url, ".glb") && !Contains(url, ".obj") && Contains(url, ".fbx") ==> ext == ".fbx"
    ensures !Contains(url, ".glb") && !Contains(url, ".obj") && !Contains(url, ".fbx") && Contains(url, ".stl") ==> ext == ".stl"
    ensures ext == ".fbx" ==> !Contains(url, ".obj")
    ensures ext == ".stl" ==> !Contains(url, ".obj") && !Contains(url, ".fbx")
    ensures (forall k :: 0 <= k < |Sniffed| ==> !Contains(url, Sniffed[k])) ==> ext == ".glb"
  {
    var k := FirstOccurring(url, Sniffed);
    assert Sniffed[0] == ".glb" && Sniffed[1] == ".obj" && Sniffed[2] == ".fbx" && Sniffed[3] == ".stl";
    assert ".fbx" != ".obj" && ".stl" != ".obj" && ".stl" != ".fbx" && ".stl" != ".glb" by {
      assert ".fbx"[1] != ".obj"[1] && ".stl"[1] != ".obj"[1] && ".stl"[1] != ".fbx"[1] && ".stl"[1] != ".glb"[1];
    }
    if k < |Sniffed| then Sniffed[k] else ".glb"
  }

  /** The extension `download_model_file` gives the temporary file. */
  function Extension(url: string, fileType: Option<string>): (ext: string)
    ensures fileType.Some? && fileType.value != "" ==> ext == "." + Lower(fileType.value)
    ensures fileType.None? || fileType.value == "" ==> ext == SniffExtension(url) && ext in Sniffed
  {
    match fileType
    case Some(t) => if t != "" then "." + Lower(t) else SniffExtension(url)
    case None => SniffExtension(url)
  }

  datatype Importer = GltfImporter | ObjImporter | FbxImporter | StlImporter

  /** The importer for a format name, or None for the ValueError of an unsupported one. */
  function ImporterFor(importType: string): (r: Option<Importer>)
    ensures r == Some(GltfImporter) <==> Lower(importType) == "glb" || Lower(importType) == "gltf"
    ensures r == Some(ObjImporter) <==> Lower(importType) == "obj"
    ensures r == Some(FbxImporter) <==> Lower(importType) == "fbx"
    ensures r == Some(StlImporter) <==> Lower(importType) == "stl"
  {
    var t := Lower(importType);
    if t == "glb" || t == "gltf" then Some(GltfImporter)
    else if t == "obj" then Some(ObjImporter)
    else if t == "fbx" then Some(FbxImporter)
    else if t == "stl" then Some(StlImporter)
    else None
  }

  /** Every extension guessed from a URL names a format some importer handles. */
  lemma SniffedFormatIsImportable(url: string)
    ensures ImporterFor(SniffExtension(url)[1..]).Some?
  {
    var ext := SniffExtension(url);
    LowerOfLower(ext[1..]);
  }

  /** What the transfer did: the temporary path written, or the exception it raised. */
  datatype Transfer = Saved(tempPath: string) | TransferRaised(reason: string)

  /**
   One run of `download_and_import_model`: whether the download was started
   and with which extension, the importer called, the temporary file removed,
   and the exception the caller sees (None when the model was imported).
   */
  datatype Run = Run(
    downloadExtension: Option<string>,
    importer: Option<Importer>,
    removed: Option<string>,
    raised: Option<string>)

  /**
   `download_and_import_model(model_url, import_type, ...)`, given the
   transfer, whether the temporary file then exists, and the exception the
   importer raises, if any.
   */
  function DownloadAndImport(url: string, importType: string, transfer: Transfer, fileExists: bool,
                             importerRaises: Option<string>): (r: Run)
    ensures url == "" ==> r == Run(None, None, None, Some("ValueError: Model URL is empty"))
    ensures url != "" ==> r.downloadExtension == Some(Extension(url, Some(importType)))
    ensures r.removed.Some? <==> url != "" && transfer.Saved? && fileExists
    ensures r.removed.Some? ==> r.removed.value == transfer.tempPath
    ensures r.importer.Some? ==> r.removed.Some? && r.importer == ImporterFor(importType)
    ensures r.raised.None? <==> r.importer.Some? && importerRaises.None?
    ensures r.removed.Some? && ImporterFor(importType).None? ==>
      r.raised == Some("ValueError: Unsupported format: " + importType)
    ensures r.removed.Some? && ImporterFor(importType).Some? ==>
      r.importer == ImporterFor(importType) && r.raised == importerRaises
    ensures url != "" && transfer.TransferRaised? ==> r.raised == Some(transfer.reason)
    ensures url != "" && transfer.Saved? && !fileExists ==> r.raised == Some("RuntimeError: Failed to download model file")
  {
    if url == "" then Run(None, None, None, Some("ValueError: Model URL is empty"))
    else
      var ext := Some(Extension(url, Some(importType)));
      match transfer
      case TransferRaised(reason) => Run(ext, None, None, Some(reason))
      case Saved(path) =>
        if !fileExists then Run(ext, None, None, Some("RuntimeError: Failed to download model file"))
        else match ImporterFor(importType)
          case None => Run(ext, None, Some(path), Some("ValueError: Unsupported format: " + importType))
          case Some(importer) => Run(ext, Some(importer), Some(path), importerRaises)
  }
}

=== FILE: history.dfy ===
/**
 The generation history (`GenerationHistory`) with file loading and saving
 stripped away: a list of entry dicts and a running counter that numbers
 them. Every operation is a function from the old data to the new data.
 */
module History {
  import opened Json
  import opened Wrappers
  import opened Records

  /** `history_data`: `{'generations': [...], 'total_count': n}`. */
  datatype HistoryData = HistoryData(generations: seq<Record>, totalCount: int)

  /** The data of a missing or unreadable history file, and of a cleared history. */
  const Empty := HistoryData([], 0)

  /** The fields `add_generation` copies from the caller's info dict, with their defaults. */
  const Defaults: map<string, Value> := map[
    "provider" := Str("Unknown"),
    "type" := Str("unknown"),
    "prompt" := Str(""),
    "image_path" := Str(""),
    "style" := Str(""),
    "quality" := Int(0),
    "format" := Str(""),
    "job_id" := Str(""),
    "model_url" := Str(""),
    "status" := Str("pending"),
    "error" := Str(""),
    "imported_model_name" := Str("")]

  /**
   Every entry has `key`. A lookup that indexes entries with `gen[key]`
   raises KeyError on an entry without it; every entry `AddGeneration`
   writes has all the keys of `Defaults`.
   */
  predicate AllHave(gens: seq<Record>, key: string) {
    forall i :: 0 <= i < |gens| ==> key in gens[i]
  }

  // ---------------------------------------------------------------------
  // Adding

  /**
   The entry `add_generation` builds: its number, its timestamp, and each
   field of `Defaults` taken from the info dict or else defaulted. Other keys
   of the info dict are dropped.
   */
  function NewEntry(id: int, timestamp: string, info: Record): (e: Record)
    ensures e.Keys == Defaults.Keys + {"id", "timestamp"}
    ensures e["id"] == Int(id) && e["timestamp"] == Str(timestamp)
    ensures forall k :: k in Defaults && k in info ==> e[k] == info[k]
    ensures forall k :: k in Defaults && k !in info ==> e[k] == Defaults[k]
  {
    var fields := map k | k in Defaults :: GetOr(info, k, Defaults[k]);
    fields["id" := Int(id)]["timestamp" := Str(timestamp)]
  }

  /** The defaults the add-on documents: provider, type, quality and status have their own, the rest are empty. */
  lemma DefaultValues()
    ensures Defaults["provider"] == Str("Unknown") && Defaults["type"] == Str("unknown")
    ensures Defaults["quality"] == Int(0) && Defaults["status"] == Str("pending")
    ensures forall k :: k in Defaults && k !in {"provider", "type", "quality", "status"} ==> Defaults[k] == Str("")
  {
  }

  /** `add_generation`: the new data and the entry it returns. The timestamp is an input. */
  function AddGeneration(data: HistoryData, info: Record, timestamp: string): (r: (HistoryData, Record))
    ensures Get(r.1, "id") == Int(data.totalCount + 1)
    ensures r.0.totalCount == data.totalCount + 1
    ensures |r.0.generations| == |data.generations| + 1
    ensures r.0.generations[..|data.generations|] == data.generations
    ensures r.0.generations[|data.generations|] == r.1
    ensures r.1 == NewEntry(data.totalCount + 1, timestamp, info)
    ensures forall k :: k in Defaults && AllHave(data.generations, k) ==> AllHave(r.0.generations, k)
  {
    var entry := NewEntry(data.totalCount + 1, timestamp, info);
    (HistoryData(data.generations + [entry], data.totalCount + 1), entry)
  }

  /**
   A run of `add_generation` calls, one per info dict, with their timestamps.
   The counter numbers the entries: the run appends one entry per call, in
   order, numbered from the counter on, and moves the counter by the number
   of calls.
   */
  function AddAll(data: HistoryData, infos: seq<Record>, stamps: seq<string>): (r: HistoryData)
    requires |stamps| == |infos|
    ensures r.totalCount == data.totalCount + |infos|
    ensures |r.generations| == |data.generations| + |infos|
    ensures r.generations[..|data.generations|] == data.generations
    ensures forall i :: |data.generations| <= i < |r.generations| ==>
      Get(r.generations[i], "id") == Int(data.totalCount + 1 + i - |data.generations|)
    decreases |infos|
  {
    if |infos| == 0 then data
    else
      var (next, entry) := AddGeneration(data, infos[0], stamps[0]);
      var r := AddAll(next, infos[1..], stamps[1..]);
      var n := |data.generations|;
      assert r.generations[..n] == data.generations by {
        assert r.generations[..n] == r.generations[..n + 1][..n];
      }
      assert r.generations[n] == entry by {
        assert r.generations[n] == r.generations[..n + 1][n] == next.generations[n];
      }
      assert forall i :: n <= i < |r.generations| ==> Get(r.generations[i], "id") == Int(data.totalCount + 1 + i - n) by {
        forall i | n <= i < |r.generations| ensures Get(r.generations[i], "id") == Int(data.totalCount + 1 + i - n) {
          if i == n {
            assert Get(entry, "id") == Int(data.totalCount + 1);
          } else {
            assert |next.generations| == n + 1 && next.totalCount == data.totalCount + 1;
          }
        }
      }
      r
  }

  /** After clearing, numbering starts again at 1. */
  lemma ClearedHistoryRenumbers(infos: seq<Record>, stamps: seq<string>)
    requires |stamps| == |infos|
    ensures forall i :: 0 <= i < |infos| ==> Get(AddAll(ClearHistory(), infos, stamps).generations[i], "id") == Int(i + 1)
  {
    var r := AddAll(ClearHistory(), infos, stamps);
    assert |r.generations| == |infos|;
    forall i | 0 <= i < |infos| ensures Get(r.generations[i], "id") == Int(i + 1) {
      assert Get(r.generations[i], "id") == Int(0 + 1 + i - 0);
    }
  }

  // ---------------------------------------------------------------------
  // Lookups by job id

  /** Index `i` holds the first entry with that job id. */
  predicate FirstWithJob(gens: seq<Record>, jobId: Value, i: int) {
    0 <= i < |gens| && Get(gens[i], "job_id") == jobId && forall j :: 0 <= j < i ==> Get(gens[j], "job_id") != jobId
  }

  predicate NoJob(gens: seq<Record>, jobId: Value) {
    forall j :: 0 <= j < |gens| ==> Get(gens[j], "job_id") != jobId
  }

  function HasJob(jobId: Value): Record -> bool {
    (g: Record) => Get(g, "job_id") == jobId
  }

  /**
   The loop `for gen in generations: if gen['job_id'] == job_id` raises no
   KeyError: every entry it reads, up to and including the first match, has
   a job id. Entries after the match are never read.
   */
  predicate JobsReadable(gens: seq<Record>, jobId: Value) {
    AllHave(Scanned(gens, HasJob(jobId)), "job_id")
  }

  /** `gen['status'] = status; gen.update(kwargs)`. */
  function Overlay(g: Record, status: Value, extra: Record): (u: Record)
    ensures u.Keys == g.Keys + extra.Keys + {"status"}
    ensures "status" !in extra ==> u["status"] == status
    ensures forall k :: k in extra ==> u[k] == extra[k]
    ensures forall k :: k in g && k !in extra && k != "status" ==> u[k] == g[k]
  {
    g["status" := status] + extra
  }

  /**
   `update_generation`: the first entry with the job id gets the status and
   the extra fields, and is returned; no match changes nothing and gives None.
   `status` and `job_id` cannot be passed again as keyword fields.
   */
  function UpdateGeneration(data: HistoryData, jobId: Value, status: Value, extra: Record): (r: (HistoryData, Option<Record>))
    requires JobsReadable(data.generations, jobId)
    requires "status" !in extra && "job_id" !in extra
    ensures r.0.totalCount == data.totalCount
    ensures r.1.None? <==> NoJob(data.generations, jobId)
    ensures r.1.None? ==> AllHave(data.generations, "job_id")
    ensures r.1.Some? ==> "job_id" in r.1.value && r.1.value["job_id"] == jobId
    ensures r.1.None? ==> r.0 == data
    ensures forall i :: FirstWithJob(data.generations, jobId, i) ==>
      && r.1 == Some(Overlay(data.generations[i], status, extra))
      && r.0.generations == data.generations[i := r.1.value]
    ensures forall k :: AllHave(data.generations, k) ==> AllHave(r.0.generations, k)
  {
    var gens := data.generations;
    match FindFirst(gens, HasJob(jobId))
    case None => (data, None)
    case Some(i) =>
      var updated := Overlay(gens[i], status, extra);
      assert FirstWithJob(gens, jobId, i);
      assert forall j :: FirstWithJob(gens, jobId, j) ==> j == i;
      assert Scanned(gens, HasJob(jobId))[i] == gens[i];
      assert updated.Keys >= gens[i].Keys;
      (data.(generations := gens[i := updated]), Some(updated))
  }

  /** `get_generation`: the first entry with the job id. */
  function GetGeneration(data: HistoryData, jobId: Value): (r: Option<Record>)
    requires JobsReadable(data.generations, jobId)
    ensures r.None? <==> NoJob(data.generations, jobId)
    ensures r.None? ==> AllHave(data.generations, "job_id")
    ensures r.Some? ==> r.value in data.generations && "job_id" in r.value && r.value["job_id"] == jobId
    ensures forall i :: FirstWithJob(data.generations, jobId, i) ==> r == Some(data.generations[i])
  {
    match FindFirst(data.generations, HasJob(jobId))
    case None => None
    case Some(i) =>
      assert Scanned(data.generations, HasJob(jobId))[i] == data.generations[i];
      Some(data.generations[i])
  }

  /** An update is seen by the next lookup of the same job. */
  lemma UpdateThenGet(data: HistoryData, jobId: Value, status: Value, extra: Record)
    requires JobsReadable(data.generations, jobId)
    requires "status" !in extra && "job_id" !in extra
    ensures var (after, updated) := UpdateGeneration(data, jobId, status, extra);
      JobsReadable(after.generations, jobId) && GetGeneration(after, jobId) == updated
  {
    var (after, updated) := UpdateGeneration(data, jobId, status, extra);
    var found := FindFirst(data.generations, HasJob(jobId));
    if found.Some? {
      var i := found.value;
      assert FirstWithJob(data.generations, jobId, i);
      assert FirstWithJob(after.generations, jobId, i);
      var before := Scanned(data.generations, HasJob(jobId));
      var scan := Scanned(after.generations, HasJob(jobId));
      assert |scan| == i + 1;
      forall j | 0 <= j < |scan| ensures "job_id" in scan[j] {
        if j < i {
          assert scan[j] == before[j];
        }
      }
    }
  }

  // ---------------------------------------------------------------------
  // Filters and deletion

  function ProviderIs(provider: Value): Record -> bool {
    (g: Record) => Get(g, "provider") == provider
  }

  /** `get_generations_by_provider`. */
  function ByProvider(data: HistoryData, provider: Value): (r: seq<Record>)
    requires AllHave(data.generations, "provider")
    ensures SubsequenceOf(r, data.generations)
    ensures forall g :: g in r <==> g in data.generations && g["provider"] == provider
    ensures forall g :: multiset(r)[g] == if Get(g, "provider") == provider then multiset(data.generations)[g] else 0
  {
    Filter(data.generations, ProviderIs(provider))
  }

  /** `get_generations_by_type`. */
  function ByType(data: HistoryData, genType: Value): (r: seq<Record>)
    requires AllHave(data.generations, "type")
    ensures SubsequenceOf(r, data.generations)
    ensures forall g :: g in r <==> g in data.generations && g["type"] == genType
    ensures forall g :: multiset(r)[g] == if Get(g, "type") == genType then multiset(data.generations)[g] else 0
  {
    Filter(data.generations, (g: Record) => Get(g, "type") == genType)
  }

  function HasStatus(status: string): Record -> bool {
    (g: Record) => Get(g, "status") == Str(status)
  }

  /** `get_completed_generations`. */
  function Completed(data: HistoryData): (r: seq<Record>)
    requires AllHave(data.generations, "status")
    ensures SubsequenceOf(r, data.generations)
    ensures forall g :: g in r <==> g in data.generations && g["status"] == Str("completed")
    ensures forall g :: multiset(r)[g] == if Get(g, "status") == Str("completed") then multiset(data.generations)[g] else 0
  {
    Filter(data.generations, HasStatus("completed"))
  }

  /** `delete_generation`: every entry with the job id goes; the counter stays. */
  function DeleteGeneration(data: HistoryData, jobId: Value): (r: HistoryData)
    requires AllHave(data.generations, "job_id")
    ensures r.totalCount == data.totalCount
    ensures SubsequenceOf(r.generations, data.generations)
    ensures forall g :: g in r.generations <==> g in data.generations && g["job_id"] != jobId
    ensures forall g :: multiset(r.generations)[g] == if Get(g, "job_id") != jobId then multiset(data.generations)[g] else 0
    ensures forall k :: AllHave(data.generations, k) ==> AllHave(r.generations, k)
    ensures NoJob(r.generations, jobId)
  {
    var kept := Filter(data.generations, (g: Record) => Get(g, "job_id") != jobId);
    assert forall i :: 0 <= i < |kept| ==> kept[i] in data.generations;
    data.(generations := kept)
  }

  /** After a deletion, a lookup of the deleted job finds nothing. */
  lemma DeletedGenerationIsGone(data: HistoryData, jobId: Value)
    requires AllHave(data.generations, "job_id")
    ensures JobsReadable(DeleteGeneration(data, jobId).generations, jobId)
    ensures GetGeneration(DeleteGeneration(data, jobId), jobId).None?
  {
  }

  /** A deletion leaves the lookup of every other job as it was. */
  lemma DeleteKeepsOtherJobs(data: HistoryData, jobId: Value, other: Value)
    requires AllHave(data.generations, "job_id")
    requires other != jobId
    ensures JobsReadable(data.generations, other) && JobsReadable(DeleteGeneration(data, jobId).generations, other)
    ensures GetGeneration(DeleteGeneration(data, jobId), other) == GetGeneration(data, other)
  {
    FindFirstSurvivesFilter(data.generations, (g: Record) => Get(g, "job_id") != jobId, HasJob(other));
  }

  /** An added entry shows up last among its provider's entries, and only there. */
  lemma ByProviderAfterAdd(data: HistoryData, info: Record, timestamp: string, provider: Value)
    requires AllHave(data.generations, "provider")
    ensures var (after, entry) := AddGeneration(data, info, timestamp);
      && AllHave(after.generations, "provider")
      && ByProvider(after, provider) == ByProvider(data, provider) + (if entry["provider"] == provider then [entry] else [])
  {
    var (after, entry) := AddGeneration(data, info, timestamp);
    var keep := ProviderIs(provider);
    assert after.generations == data.generations + [entry];
    assert "provider" in entry && keep(entry) == (entry["provider"] == provider);
    FilterAppend(data.generations, [entry], keep);
    assert [entry][1..] == [];
    assert Filter([entry], keep) == if keep(entry) then [entry] else [];
    assert ByProvider(after, provider) == Filter(data.generations, keep) + Filter([entry], keep);
  }

  /** `clear_history`. */
  function ClearHistory(): (r: HistoryData)
    ensures r.generations == [] && r.totalCount == 0
  {
    Empty
  }

  // ---------------------------------------------------------------------
  // Statistics

  /** The dict `get_statistics` returns; the three breakdowns are dicts of counts. */
  datatype Stats = Stats(
    total: nat, completed: nat, failed: nat, pending: nat,
    byProvider: Counts<Value>, byType: Counts<Value>, byStyle: Counts<Value>)

  /** `[gen.get(key, default) for gen in generations]`. */
  function Column(gens: seq<Record>, key: string, default: Value): (r: seq<Value>)
    ensures |r| == |gens|
    ensures forall i :: 0 <= i < |gens| ==> r[i] == GetOr(gens[i], key, default)
  {
    Map(gens, (g: Record) => GetOr(g, key, default))
  }

  /** The breakdown of a column: distinct keys, each counted as often as it occurs, adding up to the total. */
  ghost predicate Breakdown(counts: Counts<Value>, column: seq<Value>) {
    && DistinctKeys(counts)
    && (forall k :: HasKey(counts, k) <==> k in column)
    && (forall k :: Lookup(counts, k) == multiset(column)[k])
    && Total(counts) == |column|
  }

  function CountBy(column: seq<Value>): (t: Counts<Value>)
    ensures Breakdown(t, column)
  {
    TallyCounts(column);
    Tally(column)
  }

  /** `get_statistics`. */
  function Statistics(data: HistoryData): (s: Stats)
    requires AllHave(data.generations, "status")
    ensures s.total == |data.generations|
    ensures s.completed + s.failed + s.pending <= s.total
    ensures s.completed == |Completed(data)|
    ensures s.failed == |Filter(data.generations, HasStatus("failed"))|
    ensures s.pending == |Filter(data.generations, HasStatus("pending"))|
    ensures Breakdown(s.byProvider, Column(data.generations, "provider", Str("Unknown")))
    ensures Breakdown(s.byType, Column(data.generations, "type", Str("unknown")))
    ensures Breakdown(s.byStyle, Column(data.generations, "style", Str("unknown")))
  {
    var gens := data.generations;
    DisjointFiltersFit(gens, HasStatus("completed"), HasStatus("failed"), HasStatus("pending"));
    Stats(
      |gens|,
      |Filter(gens, HasStatus("completed"))|,
      |Filter(gens, HasStatus("failed"))|,
      |Filter(gens, HasStatus("pending"))|,
      CountBy(Column(gens, "provider", Str("Unknown"))),
      CountBy(Column(gens, "type", Str("unknown"))),
      CountBy(Column(gens, "style", Str("unknown"))))
  }
}

=== FILE: json.dfy ===
/**
 The JSON values the add-on exchanges with vendors and keeps in its stores,
 together with the few pieces of Python dictionary semantics the code relies
 on: `dict.get` with and without a default, and truthiness (`x or y`, `if x`).
 */
module Json {

  /** A decoded JSON document. Floating-point numbers are not modelled. */
  datatype Value =
    | Null
    | Bool(b: bool)
    | Int(i: int)
    | Str(s: string)
    | Arr(items: seq<Value>)
    | Obj(fields: map<string, Value>)

  /** A Python dict with string keys. */
  type Record = map<string, Value>

  /** Python truthiness: None, False, 0 and empty containers are false. */
  predicate Truthy(v: Value) {
    match v
    case Null => false
    case Bool(b) => b
    case Int(i) => i != 0
    case Str(s) => |s| > 0
    case Arr(a) => |a| > 0
    case Obj(m) => |m| > 0
  }

  /** `d.get(key)`: the stored value, or None when the key is absent. */
  function Get(d: Record, key: string): (v: Value)
    ensures key in d ==> v == d[key]
    ensures key !in d ==> v == Null
  {
    if key in d then d[key] else Null
  }

  /** `d.get(key, default)`. */
  function GetOr(d: Record, key: string, default: Value): (v: Value)
    ensures key in d ==> v == d[key]
    ensures key !in d ==> v == default
  {
    if key in d then d[key] else default
  }

  /** Python `a or b`: the first operand when it is truthy, else the second. */
  function Or(a: Value, b: Value): (v: Value)
    ensures Truthy(v) <==> Truthy(a) || Truthy(b)
    ensures Truthy(a) ==> v == a
    ensures !Truthy(a) ==> v == b
  {
    if Truthy(a) then a else b
  }
}

=== FILE: meshy.dfy ===
/**
 The Meshy client: quality becomes an `art_style` tier, glb/gltf output asks
 for rich textures, the job id sits under `result.id`, and a completed poll
 picks a glb/gltf URL out of `result.model_urls`. Unlike the other two
 clients, it reports the vendor's status lowercased with no renaming:
 `PollAsWritten` is that reading, `Poll` the corrected one.
 */
module Meshy {
  import opened Json
  import opened Text
  import opened Wrappers
  import opened ProviderBase

  const DefaultBaseUrl: string := "https://api.meshy.ai"

  /** Whether the lowercased output format asks for `texture_richness`. */
  predicate WantsRichTexture(outputFormat: string) {
    Lower(outputFormat) == "glb" || Lower(outputFormat) == "gltf"
  }

  /** The JSON request `generate_text` posts. */
  function TextRequest(c: Client, prompt: string, style: string, quality: int, outputFormat: string): (r: Request)
    ensures r.verb == POST && r.url == c.baseUrl + "/openapi/v1/text-to-3d" && r.bearer == c.apiKey
    ensures r.upload == None
    ensures r.fields.Keys - {"texture_richness"} ==
      {"object_prompt", "style", "model_type", "art_style", "negative_prompt", "ai_model"}
    ensures r.fields["object_prompt"] == Str(prompt) && r.fields["style"] == Str(style)
    ensures r.fields["art_style"] == Str(QualityTier(quality))
    ensures r.fields["model_type"] == Str("gaussian_splatting") && r.fields["ai_model"] == Str("meshy-4")
    ensures r.fields["negative_prompt"] == Str("")
    ensures "texture_richness" in r.fields <==> WantsRichTexture(outputFormat)
    ensures "texture_richness" in r.fields ==> r.fields["texture_richness"] == Str("high")
  {
    var fields := map[
      "object_prompt" := Str(prompt), "style" := Str(StyleFor(style)),
      "model_type" := Str("gaussian_splatting"), "art_style" := Str(QualityTier(quality)),
      "negative_prompt" := Str(""), "ai_model" := Str("meshy-4")];
    Request(POST, c.baseUrl + "/openapi/v1/text-to-3d", c.apiKey,
      if WantsRichTexture(outputFormat) then fields["texture_richness" := Str("high")] else fields,
      None)
  }

  /** The multipart request `generate_image` posts; quality and format are not sent. */
  function ImageRequest(c: Client, imagePath: string, style: string, backgroundRemoval: bool): (r: Request)
    ensures r.verb == POST && r.url == c.baseUrl + "/openapi/v1/image-to-3d" && r.bearer == c.apiKey
    ensures r.upload == Some(imagePath)
    ensures r.fields.Keys - {"background_removal"} == {"object_prompt", "style", "ai_model"}
    ensures r.fields["style"] == Str(style) && r.fields["ai_model"] == Str("meshy-4-turbo")
    ensures r.fields["object_prompt"] == Str("")
    ensures "background_removal" in r.fields <==> backgroundRemoval
    ensures backgroundRemoval ==> r.fields["background_removal"] == Str("true")
  {
    var fields := map["object_prompt" := Str(""), "style" := Str(StyleFor(style)), "ai_model" := Str("meshy-4-turbo")];
    Request(POST, c.baseUrl + "/openapi/v1/image-to-3d", c.apiKey,
      if backgroundRemoval then fields["background_removal" := Str("true")] else fields,
      Some(imagePath))
  }

  /** `data.get("result", {})` when the body is an object. */
  function ResultOf(d: Record): Value {
    GetOr(d, "result", Obj(map[]))
  }

  /** The submission result read from an answered request: the id under `result`. */
  function Accepted(body: Value): (r: Submit)
    ensures r.Submitted? <==> body.Obj? && ResultOf(body.fields).Obj?
    ensures r.Submitted? ==> r.jobId == Get(ResultOf(body.fields).fields, "id")
  {
    if !body.Obj? then SubmitCrashed("AttributeError: response body is not an object")
    else match ResultOf(body.fields)
      case Obj(result) => Submitted(Get(result, "id"))
      case _ => SubmitCrashed("AttributeError: result is not an object")
  }

  /** `generate_text`, given what the vendor answered. */
  function GenerateText(reply: Exchange): (r: Submit)
    ensures reply.Raised? ==> r == SubmitFailed("Meshy API error: " + reply.err.text)
    ensures reply.Answered? ==> r == Accepted(reply.body)
  {
    match reply
    case Raised(err) => SubmitFailed("Meshy API error: " + err.text)
    case Answered(body) => Accepted(body)
  }

  /** `generate_image`, given what opening the image did and what the vendor answered. */
  function GenerateImage(imagePath: string, image: ImageOpen, reply: Exchange): (r: Submit)
    ensures image.NotFound? ==> r == SubmitFailed("Image file not found: " + imagePath)
    ensures image.OpenRaised? ==> r == SubmitCrashed(image.reason)
    ensures image.Opened? && reply.Raised? ==> r == SubmitFailed("Meshy API error: " + reply.err.text)
    ensures image.Opened? && reply.Answered? ==> r == Accepted(reply.body)
  {
    match image
    case NotFound => SubmitFailed("Image file not found: " + imagePath)
    // Neither FileNotFoundError nor a `requests` exception: not caught.
    case OpenRaised(reason) => SubmitCrashed(reason)
    case Opened => GenerateText(reply)
  }

  // ---------------------------------------------------------------------
  // Choosing the asset URL

  /** A URL the client prefers: it mentions glb or gltf in any case. */
  predicate Preferred(url: string) {
    Contains(Lower(url), "glb") || Contains(Lower(url), "gltf")
  }

  /** All of `urls[..n]` are strings the client does not prefer. */
  predicate PassedOver(urls: seq<Value>, n: nat)
    requires n <= |urls|
  {
    forall j :: 0 <= j < n ==> urls[j].Str? && !Preferred(urls[j].s)
  }

  /** How the `for ... else` loop over `model_urls` ends. */
  datatype Scan = Match(index: nat) | NoMatch | NotAString(index: nat)

  /** The loop of `poll_status` over the candidate URLs. */
  function ScanUrls(urls: seq<Value>): (r: Scan)
    ensures r.Match? ==> r.index < |urls| && urls[r.index].Str? && Preferred(urls[r.index].s) && PassedOver(urls, r.index)
    ensures r.NoMatch? ==> PassedOver(urls, |urls|)
    ensures r.NotAString? ==> r.index < |urls| && !urls[r.index].Str? && PassedOver(urls, r.index)
  {
    if |urls| == 0 then NoMatch
    else if !urls[0].Str? then NotAString(0)
    else if Preferred(urls[0].s) then Match(0)
    else match ScanUrls(urls[1..])
      case Match(i) => Match(i + 1)
      case NoMatch => NoMatch
      case NotAString(i) => NotAString(i + 1)
  }

  /** The URL `poll_status` reports for a truthy `model_urls` value, or None if it raises. */
  function PickUrl(candidates: Value): (r: Option<Value>)
    requires Truthy(candidates)
    ensures candidates.Arr? && ScanUrls(candidates.items).Match? ==>
      r == Some(candidates.items[ScanUrls(candidates.items).index])
    ensures candidates.Arr? && ScanUrls(candidates.items).NoMatch? ==> r == Some(candidates.items[0])
    ensures candidates.Arr? && ScanUrls(candidates.items).NotAString? ==> r == None
    ensures candidates.Str? ==> r == Some(Str([candidates.s[0]]))
  {
    match candidates
    case Arr(items) =>
      (match ScanUrls(items)
       case Match(i) => Some(items[i])
       case NoMatch => Some(items[0])
       case NotAString(_) => None)
    // Iterating a string yields its characters, none of which contains "glb".
    case Str(s) => Some(Str([s[0]]))
    case _ => None
  }

  /** An obj URL mentions neither glb nor gltf. */
  lemma ObjUrlNotPreferred()
    ensures !Preferred("a.obj")
  {
    var obj := "a.obj";
    LowerOfLower(obj);
    assert !Contains(obj, "glb") by {
      forall i | 0 <= i <= |obj| - 3 ensures !OccursAt(obj, "glb", i) {
        assert obj[i..i + 3][0] == obj[i];
      }
    }
    assert !Contains(obj, "gltf") by {
      forall i | 0 <= i <= |obj| - 4 ensures !OccursAt(obj, "gltf", i) {
        assert obj[i..i + 4][0] == obj[i];
      }
    }
  }

  lemma GlbUrlPreferred()
    ensures Preferred("b.glb")
  {
    var glb := "b.glb";
    LowerOfLower(glb);
    assert OccursAt(glb, "glb", 2);
  }

  /** Of an obj URL and a glb URL, the glb one is chosen. */
  lemma PrefersGlbExample()
    ensures PickUrl(Arr([Str("a.obj"), Str("b.glb")])) == Some(Str("b.glb"))
  {
    GlbUrlPreferred();
    ObjUrlNotPreferred();
    var urls := [Str("a.obj"), Str("b.glb")];
    assert ScanUrls(urls[1..]) == Match(0);
    assert ScanUrls(urls) == Match(1);
  }

  /**
   Over a list of URL strings, the chosen URL is the first preferred one,
   or the first of all when none is preferred.
   */
  lemma PickUrlOfStrings(urls: seq<Value>)
    requires |urls| > 0
    requires forall i :: 0 <= i < |urls| ==> urls[i].Str?
    ensures forall i :: 0 <= i < |urls| && Preferred(urls[i].s) && PassedOver(urls, i) ==> PickUrl(Arr(urls)) == Some(urls[i])
    ensures PassedOver(urls, |urls|) ==> PickUrl(Arr(urls)) == Some(urls[0])
  {
    var scan := ScanUrls(urls);
    if scan.NotAString? {
      assert false;
    } else if scan.Match? {
      assert !PassedOver(urls, |urls|);
    } else {
      assert forall i :: 0 <= i < |urls| ==> !Preferred(urls[i].s);
    }
  }

  // ---------------------------------------------------------------------
  // Polling

  function PollRequest(c: Client, jobId: string): (r: Request)
    ensures r.verb == GET && r.url == c.baseUrl + "/openapi/v1/tasks/" + jobId && r.bearer == c.apiKey
  {
    Request(GET, c.baseUrl + "/openapi/v1/tasks/" + jobId, c.apiKey, map[], None)
  }

  /**
   The body of `poll_status`, where the status and URLs live under `result`.
   With `renamed`, a vendor status of "succeeded" is treated as "completed",
   as the other two clients do; without it, the status is only lowercased.
   */
  function ReadPoll(jobId: string, reply: Exchange, renamed: bool): PollReply {
    match reply
    case Raised(err) => Polled(PollError(jobId, err))
    case Answered(body) =>
      if !body.Obj? then PollCrashed("AttributeError: response body is not an object")
      else match ResultOf(body.fields)
        case Obj(result) =>
          (match StatusOf(result)
           case None => PollCrashed("AttributeError: status is not a string")
           case Some(raw) =>
             var status := if renamed && raw == "succeeded" then "completed" else raw;
             if status == "completed" then
               var candidates := GetOr(result, "model_urls", Arr([]));
               if !Truthy(candidates) then Polled(PollResult(jobId, status, None, None))
               else match PickUrl(candidates)
                 case Some(url) => Polled(PollResult(jobId, status, Some(url), None))
                 case None => PollCrashed("model_urls holds a value that is not a string")
             else if status == "failed" || status == "error" then
               Polled(PollResult(jobId, status, None, Some(GetOr(result, "error_message", Str("Unknown error")))))
             else
               Polled(PollResult(jobId, status, None, None)))
        case _ => PollCrashed("AttributeError: result is not an object")
  }

  /**
   The answers on which `poll_status` raises: a body or `result` that is not
   an object, a status that is not a string, or a completed task whose
   `model_urls` holds a value that is not a string before any preferred
   URL. With `renamed`, "succeeded" counts as completed.
   */
  predicate PollRaises(body: Value, renamed: bool) {
    || !body.Obj?
    || !ResultOf(body.fields).Obj?
    || StatusOf(ResultOf(body.fields).fields).None?
    || (var result := ResultOf(body.fields).fields;
        var raw := StatusOf(result).value;
        && (raw == "completed" || (renamed && raw == "succeeded"))
        && Truthy(GetOr(result, "model_urls", Arr([])))
        && PickUrl(GetOr(result, "model_urls", Arr([]))).None?)
  }

  /** The status Meshy reports for a finished task, lowercased. */
  lemma LowerSucceeded()
    ensures Lower("SUCCEEDED") == "succeeded"
  {
    var up, low := "SUCCEEDED", "succeeded";
    LowerPointwise(up);
    forall i | 0 <= i < |up| ensures LowerChar(up[i]) == low[i] {
    }
  }

  /** `poll_status` as written: the vendor's status lowercased, "succeeded" included. */
  function PollAsWritten(jobId: string, reply: Exchange): (r: PollReply)
    ensures reply.Raised? ==> r == Polled(PollError(jobId, reply.err))
    ensures reply.Answered? ==> (r.PollCrashed? <==> PollRaises(reply.body, false))
    ensures r.Polled? ==> r.result.jobId == jobId
    ensures reply.Answered? && r.Polled? ==>
      && reply.body.Obj? && ResultOf(reply.body.fields).Obj?
      && var result := ResultOf(reply.body.fields).fields;
      && Some(r.result.status) == StatusOf(result)
      && (r.result.modelUrl.Some? ==> r.result.status == "completed" && Truthy(GetOr(result, "model_urls", Arr([]))))
      && (r.result.status == "completed" && Truthy(GetOr(result, "model_urls", Arr([]))) ==>
            r.result.modelUrl == PickUrl(GetOr(result, "model_urls", Arr([]))))
      && (r.result.error.Some? <==> r.result.status == "failed" || r.result.status == "error")
      && (r.result.error.Some? ==> r.result.error.value == GetOr(result, "error_message", Str("Unknown error")))
  {
    ReadPoll(jobId, reply, false)
  }

  /** A vendor status of "SUCCEEDED" is passed on as "succeeded", with no URL, so it does not end polling. */
  lemma SucceededIsNotRenamed(jobId: string, url: string)
    ensures PollAsWritten(jobId, Answered(Obj(map["result" := Obj(map["status" := Str("SUCCEEDED"), "model_urls" := Arr([Str(url)])])])))
         == Polled(PollResult(jobId, "succeeded", None, None))
  {
    var inner := map["status" := Str("SUCCEEDED"), "model_urls" := Arr([Str(url)])];
    var outer := map["result" := Obj(inner)];
    LowerSucceeded();
    assert ResultOf(outer) == Obj(inner);
    assert StatusOf(inner) == Some("succeeded");
    assert ReadPoll(jobId, Answered(Obj(outer)), false) == Polled(PollResult(jobId, "succeeded", None, None));
  }

  /**
   `poll_status` corrected to normalise as the Tripo and ModelsLab clients
   do: "succeeded" is reported as "completed", with a URL picked from
   `model_urls`; every other status is reported as the vendor gives it,
   lowercased.
   */
  function Poll(jobId: string, reply: Exchange): (r: PollReply)
    ensures reply.Raised? ==> r == Polled(PollError(jobId, reply.err))
    ensures reply.Answered? ==> (r.PollCrashed? <==> PollRaises(reply.body, true))
    ensures r.Polled? ==> r.result.jobId == jobId && r.result.status != "succeeded"
    ensures reply.Answered? && r.Polled? ==>
      && reply.body.Obj? && ResultOf(reply.body.fields).Obj?
      && var result := ResultOf(reply.body.fields).fields;
      && StatusOf(result).Some?
      && var raw := StatusOf(result).value;
      && (r.result.status == "completed" <==> raw == "completed" || raw == "succeeded")
      && (raw != "succeeded" ==> r.result.status == raw)
      && (r.result.modelUrl.Some? ==> r.result.status == "completed" && Truthy(GetOr(result, "model_urls", Arr([]))))
      && (r.result.status == "completed" && Truthy(GetOr(result, "model_urls", Arr([]))) ==>
            r.result.modelUrl == PickUrl(GetOr(result, "model_urls", Arr([]))))
      && (r.result.error.Some? <==> r.result.status == "failed" || r.result.status == "error")
      && (r.result.error.Some? ==> r.result.error.value == GetOr(result, "error_message", Str("Unknown error")))
    ensures reply.Answered? && PollAsWritten(jobId, reply).Polled? && PollAsWritten(jobId, reply).result.status != "succeeded" ==>
      r == PollAsWritten(jobId, reply)
  {
    ReadPoll(jobId, reply, true)
  }

  /** The corrected poll reports the same "SUCCEEDED" answer as completed, with its URL. */
  lemma SucceededIsCompleted(jobId: string, url: string)
    ensures Poll(jobId, Answered(Obj(map["result" := Obj(map["status" := Str("SUCCEEDED"), "model_urls" := Arr([Str(url)])])])))
         == Polled(PollResult(jobId, "completed", Some(Str(url)), None))
  {
    var urls := [Str(url)];
    var inner := map["status" := Str("SUCCEEDED"), "model_urls" := Arr(urls)];
    var outer := map["result" := Obj(inner)];
    LowerSucceeded();
    assert ResultOf(outer) == Obj(inner);
    assert StatusOf(inner) == Some("succeeded");
    assert GetOr(inner, "model_urls", Arr([])) == Arr(urls);
    assert PickUrl(Arr(urls)) == Some(Str(url)) by {
      assert ScanUrls(urls).Match? || ScanUrls(urls).NoMatch?;
    }
    assert ReadPoll(jobId, Answered(Obj(outer)), true) == Polled(PollResult(jobId, "completed", Some(Str(url)), None));
  }

  function ProbeRequest(c: Client): (r: Request)
    ensures r.verb == GET && r.url == c.baseUrl + "/openapi/v1/user/profile" && r.bearer == c.apiKey
  {
    Request(GET, c.baseUrl + "/openapi/v1/user/profile", c.apiKey, map[], None)
  }
}

=== FILE: modelslab.dfy ===
/**
 The ModelsLab client: quality becomes a tier in both payloads, the job id
 is the first truthy of `id`, `job_id` and `task_id`, and a completed job's
 URL comes from `model_url` or else `output_url`.
 */
module ModelsLab {
  import opened Json
  import opened Text
  import opened Wrappers
  import opened ProviderBase

  const DefaultBaseUrl: string := "https://api.modelslab.com"

  /** The JSON request `generate_text` posts. */
  function TextRequest(c: Client, prompt: string, style: string, quality: int, outputFormat: string): (r: Request)
    ensures r.verb == POST && r.url == c.baseUrl + "/api/v1/3dverse/text-to-3d" && r.bearer == c.apiKey
    ensures r.upload == None
    ensures r.fields.Keys == {"prompt", "style", "quality", "output_format"}
    ensures r.fields["prompt"] == Str(prompt) && r.fields["style"] == Str(style)
    ensures r.fields["quality"] == Str(QualityTier(quality))
    ensures r.fields["output_format"] == Str(outputFormat)
  {
    Request(POST, c.baseUrl + "/api/v1/3dverse/text-to-3d", c.apiKey,
      map["prompt" := Str(prompt), "style" := Str(StyleFor(style)),
          "quality" := Str(QualityTier(quality)), "output_format" := Str(outputFormat)],
      None)
  }

  /** The multipart request `generate_image` posts. */
  function ImageRequest(c: Client, imagePath: string, style: string, quality: int, outputFormat: string,
                        backgroundRemoval: bool): (r: Request)
    ensures r.verb == POST && r.url == c.baseUrl + "/api/v1/3dverse/image-to-3d" && r.bearer == c.apiKey
    ensures r.upload == Some(imagePath)
    ensures r.fields.Keys - {"remove_background"} == {"style", "quality", "output_format"}
    ensures r.fields["style"] == Str(style) && r.fields["quality"] == Str(QualityTier(quality))
    ensures r.fields["output_format"] == Str(outputFormat)
    ensures "remove_background" in r.fields <==> backgroundRemoval
    ensures backgroundRemoval ==> r.fields["remove_background"] == Str("true")
  {
    var fields := map["style" := Str(StyleFor(style)), "quality" := Str(QualityTier(quality)),
                      "output_format" := Str(outputFormat)];
    Request(POST, c.baseUrl + "/api/v1/3dverse/image-to-3d", c.apiKey,
      if backgroundRemoval then fields["remove_background" := Str("true")] else fields,
      Some(imagePath))
  }

  /** The submission result read from an answered request. */
  function Accepted(body: Value): (r: Submit)
    ensures body.Obj? <==> r.Submitted?
    ensures r.Submitted? ==>
      var d := body.fields;
      && (Truthy(r.jobId) <==> Truthy(Get(d, "id")) || Truthy(Get(d, "job_id")) || Truthy(Get(d, "task_id")))
      && (Truthy(Get(d, "id")) ==> r.jobId == d["id"])
      && (!Truthy(Get(d, "id")) && Truthy(Get(d, "job_id")) ==> r.jobId == d["job_id"])
      && (!Truthy(Get(d, "id")) && !Truthy(Get(d, "job_id")) ==> r.jobId == Get(d, "task_id"))
  {
    if body.Obj? then Submitted(Or(Or(Get(body.fields, "id"), Get(body.fields, "job_id")), Get(body.fields, "task_id")))
    else SubmitCrashed("AttributeError: response body is not an object")
  }

  /** `generate_text`, given what the vendor answered. */
  function GenerateText(reply: Exchange): (r: Submit)
    ensures reply.Raised? ==> r == SubmitFailed("ModelsLab API error: " + reply.err.text)
    ensures reply.Answered? ==> r == Accepted(reply.body)
  {
    match reply
    case Raised(err) => SubmitFailed("ModelsLab API error: " + err.text)
    case Answered(body) => Accepted(body)
  }

  /** `generate_image`, given what opening the image did and what the vendor answered. */
  function GenerateImage(imagePath: string, image: ImageOpen, reply: Exchange): (r: Submit)
    ensures image.NotFound? ==> r == SubmitFailed("Image file not found: " + imagePath)
    ensures image.OpenRaised? ==> r == SubmitCrashed(image.reason)
    ensures image.Opened? && reply.Raised? ==> r == SubmitFailed("ModelsLab API error: " + reply.err.text)
    ensures image.Opened? && reply.Answered? ==> r == Accepted(reply.body)
  {
    match image
    case NotFound => SubmitFailed("Image file not found: " + imagePath)
    // Neither FileNotFoundError nor a `requests` exception: not caught.
    case OpenRaised(reason) => SubmitCrashed(reason)
    case Opened => GenerateText(reply)
  }

  function PollRequest(c: Client, jobId: string): (r: Request)
    ensures r.verb == GET && r.url == c.baseUrl + "/api/v1/3dverse/status/" + jobId && r.bearer == c.apiKey
  {
    Request(GET, c.baseUrl + "/api/v1/3dverse/status/" + jobId, c.apiKey, map[], None)
  }

  /** `poll_status`: a completed job's URL comes from `model_url`, else `output_url`. */
  function Poll(jobId: string, reply: Exchange): (r: PollReply)
    ensures reply.Answered? && reply.body.Obj? && r.Polled? && r.result.status == "completed" ==>
      var url := Or(Get(reply.body.fields, "model_url"), Get(reply.body.fields, "output_url"));
      r.result.modelUrl == (if Truthy(url) then Some(url) else None)
    ensures r.Polled? && r.result.status != "completed" ==> r.result.modelUrl == None
  {
    FlatPoll(jobId, reply, "output_url")
  }

  /** A "succeeded" answer with a URL is reported as completed with that URL. */
  lemma SucceededExample()
    ensures Poll("j", Answered(Obj(map["status" := Str("succeeded"), "model_url" := Str("https://x/y.glb")])))
         == Polled(PollResult("j", "completed", Some(Str("https://x/y.glb")), None))
  {
    var d := map["status" := Str("succeeded"), "model_url" := Str("https://x/y.glb")];
    LowerOfLower("succeeded");
    assert StatusOf(d) == Some("succeeded");
    assert Or(Get(d, "model_url"), Get(d, "output_url")) == Str("https://x/y.glb");
    assert FlatPoll("j", Answered(Obj(d)), "output_url") == Polled(PollResult("j", "completed", Some(Str("https://x/y.glb")), None));
  }

  function ProbeRequest(c: Client): (r: Request)
    ensures r.verb == GET && r.url == c.baseUrl + "/api/v1/user/info" && r.bearer == c.apiKey
  {
    Request(GET, c.baseUrl + "/api/v1/user/info", c.apiKey, map[], None)
  }
}

=== FILE: operators.dfy ===
/**
 The Blender operators as step functions over the scene's add-on fields.

 Each operator takes the scene, the add-on preferences (None when they cannot
 be read) and whatever the environment answers (the vendor's reply, the files
 that exist), and returns an `Outcome`: the scene afterwards, the report shown
 to the user, the calls it made (HTTP requests and model downloads), and what
 `execute` / `modal` returned. "No provider was contacted" is `calls == []`.

 The modal polling loop is `PollTick`, one timer tick; the add-on never
 registers a timer, so the ticks are modelled as a step function.
 */
module Operators {
  import opened Json
  import opened Text
  import opened Wrappers
  import opened ProviderBase
  import Tripo
  import Meshy
  import ModelsLab

  /** The add-on preferences: one API key and base URL per provider. */
  datatype Prefs = Prefs(
    tripoKey: string, tripoUrl: string,
    meshyKey: string, meshyUrl: string,
    modelslabKey: string, modelslabUrl: string)

  /** The scene properties the operators read and write. */
  datatype Scene = Scene(
    provider: string,
    prompt: string,
    style: string,
    quality: int,
    outputFormat: string,
    imagePath: string,
    backgroundRemoval: bool,
    currentJobId: string,
    generationType: string)

  datatype Level = Info | Warning | Error

  /** A report; `detail`, when present, is a JSON value printed after the message. */
  datatype Report = Report(level: Level, message: string, detail: Option<Value>)

  /** What `execute` or `modal` returns, or the exception that escapes it. */
  datatype Ret = Finished | RunningModal | PassThrough | Raised(reason: string)

  /** A call to the outside: an HTTP request, or `download_and_import_model(url, type, name)`. */
  datatype Call = Send(request: Request) | Fetch(url: Value, importType: string, objectName: string)

  datatype Outcome = Outcome(scene: Scene, report: Option<Report>, calls: seq<Call>, ret: Ret)

  /** An operator that stops with a report and touches nothing. */
  function Stop(scene: Scene, level: Level, message: string): (r: Outcome)
    ensures r.scene == scene && r.calls == [] && r.ret == Finished
    ensures r.report == Some(Report(level, message, None))
  {
    Outcome(scene, Some(Report(level, message, None)), [], Finished)
  }

  // ---------------------------------------------------------------------
  // Choosing the client

  /** The provider an enum value of the scene names. */
  function ProviderNamed(name: string): (r: Option<Provider>)
    ensures r == Some(Tripo) <==> name == "TRIPO"
    ensures r == Some(Meshy) <==> name == "MESHY"
    ensures r == Some(ModelsLab) <==> name == "MODELSLAB"
  {
    if name == "TRIPO" then Some(Tripo)
    else if name == "MESHY" then Some(Meshy)
    else if name == "MODELSLAB" then Some(ModelsLab)
    else None
  }

  /** The key and base URL the preferences hold for a provider. */
  function Credentials(prefs: Prefs, p: Provider): (string, string) {
    match p
    case Tripo => (prefs.tripoKey, prefs.tripoUrl)
    case Meshy => (prefs.meshyKey, prefs.meshyUrl)
    case ModelsLab => (prefs.modelslabKey, prefs.modelslabUrl)
  }

  /** `get_provider_client`: the client for the scene's provider, or None. */
  function ProviderClient(scene: Scene, prefs: Option<Prefs>): (r: Option<Client>)
    ensures r.Some? <==> prefs.Some? && ProviderNamed(scene.provider).Some?
    ensures r.Some? ==> r.value.provider == ProviderNamed(scene.provider).value
    ensures r.Some? && scene.provider == "TRIPO" ==> r.value == NewClient(Tripo, prefs.value.tripoKey, prefs.value.tripoUrl)
    ensures r.Some? && scene.provider == "MESHY" ==> r.value == NewClient(Meshy, prefs.value.meshyKey, prefs.value.meshyUrl)
    ensures r.Some? && scene.provider == "MODELSLAB" ==>
      r.value == NewClient(ModelsLab, prefs.value.modelslabKey, prefs.value.modelslabUrl)
  {
    match prefs
    case None => None
    case Some(pr) =>
      match ProviderNamed(scene.provider)
      case None => None
      case Some(p) => var (key, url) := Credentials(pr, p); Some(NewClient(p, key, url))
  }

  // Dispatch from the generic client interface to the vendor implementations.

  function TextRequestFor(c: Client, prompt: string, style: string, quality: int, outputFormat: string): Request {
    match c.provider
    case Tripo => Tripo.TextRequest(c, prompt, style, quality, outputFormat)
    case Meshy => Meshy.TextRequest(c, prompt, style, quality, outputFormat)
    case ModelsLab => ModelsLab.TextRequest(c, prompt, style, quality, outputFormat)
  }

  function ImageRequestFor(c: Client, imagePath: string, style: string, quality: int, outputFormat: string,
                           backgroundRemoval: bool): Request {
    match c.provider
    case Tripo => Tripo.ImageRequest(c, imagePath, style, quality, outputFormat, backgroundRemoval)
    case Meshy => Meshy.ImageRequest(c, imagePath, style, backgroundRemoval)
    case ModelsLab => ModelsLab.ImageRequest(c, imagePath, style, quality, outputFormat, backgroundRemoval)
  }

  function TextSubmit(c: Client, reply: Exchange): Submit {
    match c.provider
    case Tripo => Tripo.GenerateText(reply)
    case Meshy => Meshy.GenerateText(reply)
    case ModelsLab => ModelsLab.GenerateText(reply)
  }

  function ImageSubmit(c: Client, imagePath: string, image: ImageOpen, reply: Exchange): Submit {
    match c.provider
    case Tripo => Tripo.GenerateImage(imagePath, image, reply)
    case Meshy => Meshy.GenerateImage(imagePath, image, reply)
    case ModelsLab => ModelsLab.GenerateImage(imagePath, image, reply)
  }

  function PollRequestFor(c: Client, jobId: string): Request {
    match c.provider
    case Tripo => Tripo.PollRequest(c, jobId)
    case Meshy => Meshy.PollRequest(c, jobId)
    case ModelsLab => ModelsLab.PollRequest(c, jobId)
  }

  /** `client.poll_status`, with each client as written: Meshy's does not rename "succeeded". */
  function PollFor(c: Client, jobId: string, reply: Exchange): PollReply {
    match c.provider
    case Tripo => Tripo.Poll(jobId, reply)
    case Meshy => Meshy.PollAsWritten(jobId, reply)
    case ModelsLab => ModelsLab.Poll(jobId, reply)
  }

  function ProbeRequestFor(c: Client): Request {
    match c.provider
    case Tripo => Tripo.ProbeRequest(c)
    case Meshy => Meshy.ProbeRequest(c)
    case ModelsLab => ModelsLab.ProbeRequest(c)
  }

  // ---------------------------------------------------------------------
  // Enum maps

  /** `style_map.get(scene.ai3d_style, 'realistic')`. */
  function StyleName(style: string): (r: string)
    ensures r in {"cartoon", "realistic", "clay", "sci-fi"}
    ensures style == "CARTOON" ==> r == "cartoon"
    ensures style == "CLAY" ==> r == "clay"
    ensures style == "SCIFI" ==> r == "sci-fi"
    ensures style !in {"CARTOON", "CLAY", "SCIFI"} ==> r == "realistic"
  {
    var styles := map["CARTOON" := "cartoon", "REALISTIC" := "realistic", "CLAY" := "clay", "SCIFI" := "sci-fi"];
    if style in styles then styles[style] else "realistic"
  }

  /** `format_map.get(scene.ai3d_output_format, 'glb')`. */
  function FormatName(format: string): (r: string)
    ensures r in {"glb", "obj", "fbx", "stl"}
    ensures format in {"GLB", "OBJ", "FBX", "STL"} ==> r == Lower(format)
    ensures format !in {"GLB", "OBJ", "FBX", "STL"} ==> r == "glb"
  {
    var formats := map["GLB" := "glb", "OBJ" := "obj", "FBX" := "fbx", "STL" := "stl"];
    assert Lower("GLB") == "glb" && Lower("OBJ") == "obj" && Lower("FBX") == "fbx" && Lower("STL") == "stl";
    if format in formats then formats[format] else "glb"
  }

  // ---------------------------------------------------------------------
  // Starting a generation

  /** The two generation operators. */
  datatype Mode = TextMode | ImageMode

  function ModeName(mode: Mode): string {
    match mode
    case TextMode => "text"
    case ImageMode => "image"
  }

  /**
   What both generation operators do with the client's answer: an error or a
   missing job id is reported and nothing changes; a job id is stored with the
   generation type and the modal starts.
   */
  function TrackSubmission(scene: Scene, mode: Mode, calls: seq<Call>, submit: Submit): (r: Outcome)
    ensures r.calls == calls
    ensures r.ret != RunningModal ==> r.scene == scene
    ensures r.ret == RunningModal <==> submit.Submitted? && submit.jobId.Str? && submit.jobId.s != ""
    ensures r.ret == RunningModal ==>
      r.scene == scene.(currentJobId := submit.jobId.s, generationType := ModeName(mode))
    ensures submit.SubmitFailed? ==> r.report == Some(Report(Error, submit.error, None)) && r.ret == Finished
    ensures submit.Submitted? && !Truthy(submit.jobId) ==>
      r.report == Some(Report(Error, "Failed to get job ID from API", None)) && r.ret == Finished
  {
    match submit
    case SubmitFailed(error) => Outcome(scene, Some(Report(Error, error, None)), calls, Finished)
    case SubmitCrashed(reason) => Outcome(scene, None, calls, Ret.Raised(reason))
    case Submitted(jobId) =>
      if !Truthy(jobId) then Outcome(scene, Some(Report(Error, "Failed to get job ID from API", None)), calls, Finished)
      else match jobId
        case Str(id) =>
          Outcome(scene.(currentJobId := id, generationType := ModeName(mode)),
            Some(Report(Info, "Generation started (Job ID: " + TakeLast(id, 12) + ")", None)), calls, RunningModal)
        // A StringProperty refuses a value that is not a string.
        case _ => Outcome(scene, None, calls, Ret.Raised("TypeError: job id is not a string"))
  }

  /** `AI3DGenerateText.execute`, given the vendor's reply to the submission. */
  function GenerateText(scene: Scene, prefs: Option<Prefs>, reply: Exchange): (r: Outcome)
    ensures IsBlank(scene.prompt) ==> r == Stop(scene, Error, "Please enter a prompt")
    ensures !IsBlank(scene.prompt) && ProviderClient(scene, prefs).None? ==>
      r == Stop(scene, Error, "Provider not configured")
    ensures !IsBlank(scene.prompt) && ProviderClient(scene, prefs).Some? && ProviderClient(scene, prefs).value.apiKey == "" ==>
      r == Stop(scene, Error, "API key not set in preferences")
    ensures r.calls != [] <==> !IsBlank(scene.prompt) && ProviderClient(scene, prefs).Some? && ProviderClient(scene, prefs).value.apiKey != ""
    ensures r.calls != [] ==>
      var c := ProviderClient(scene, prefs).value;
      r.calls == [Send(TextRequestFor(c, scene.prompt, StyleName(scene.style), scene.quality, FormatName(scene.outputFormat)))]
    ensures r.calls != [] ==> r == TrackSubmission(scene, TextMode, r.calls, TextSubmit(ProviderClient(scene, prefs).value, reply))
    ensures r.ret != RunningModal ==> r.scene == scene
    ensures r.ret == RunningModal ==> r.scene.generationType == "text" && r.scene.currentJobId != ""
    ensures r.ret == RunningModal ==> r.scene == scene.(currentJobId := r.scene.currentJobId, generationType := "text")
  {
    if IsBlank(scene.prompt) then Stop(scene, Error, "Please enter a prompt")
    else match ProviderClient(scene, prefs)
      case None => Stop(scene, Error, "Provider not configured")
      case Some(c) =>
        if c.apiKey == "" then Stop(scene, Error, "API key not set in preferences")
        else
          var request := TextRequestFor(c, scene.prompt, StyleName(scene.style), scene.quality, FormatName(scene.outputFormat));
          TrackSubmission(scene, TextMode, [Send(request)], TextSubmit(c, reply))
  }

  /**
   `AI3DGenerateImage.execute`, given the existing files, what opening the
   image in the client gives, and the vendor's reply.
   */
  function GenerateImage(scene: Scene, prefs: Option<Prefs>, files: set<string>, image: ImageOpen, reply: Exchange): (r: Outcome)
    ensures scene.imagePath == "" || scene.imagePath !in files ==> r == Stop(scene, Error, "Please select a valid image file")
    ensures scene.imagePath != "" && scene.imagePath in files && ProviderClient(scene, prefs).None? ==>
      r == Stop(scene, Error, "Provider not configured")
    ensures scene.imagePath != "" && scene.imagePath in files && ProviderClient(scene, prefs).Some?
            && ProviderClient(scene, prefs).value.apiKey == "" ==>
      r == Stop(scene, Error, "API key not set in preferences")
    ensures r.calls != [] <==>
      && scene.imagePath != "" && scene.imagePath in files && ProviderClient(scene, prefs).Some?
      && ProviderClient(scene, prefs).value.apiKey != "" && image.Opened?
    ensures r.calls != [] ==>
      var c := ProviderClient(scene, prefs).value;
      r.calls == [Send(ImageRequestFor(c, scene.imagePath, StyleName(scene.style), scene.quality,
                                       FormatName(scene.outputFormat), scene.backgroundRemoval))]
    ensures r.calls != [] ==>
      r == TrackSubmission(scene, ImageMode, r.calls, ImageSubmit(ProviderClient(scene, prefs).value, scene.imagePath, image, reply))
    ensures scene.imagePath != "" && scene.imagePath in files && ProviderClient(scene, prefs).Some?
            && ProviderClient(scene, prefs).value.apiKey != "" && !image.Opened? ==>
      r == TrackSubmission(scene, ImageMode, [], ImageSubmit(ProviderClient(scene, prefs).value, scene.imagePath, image, reply))
    ensures r.ret != RunningModal ==> r.scene == scene
    ensures r.ret == RunningModal ==> r.scene.generationType == "image" && r.scene.currentJobId != ""
    ensures r.ret == RunningModal ==> r.scene == scene.(currentJobId := r.scene.currentJobId, generationType := "image")
  {
    if scene.imagePath == "" || scene.imagePath !in files then Stop(scene, Error, "Please select a valid image file")
    else match ProviderClient(scene, prefs)
      case None => Stop(scene, Error, "Provider not configured")
      case Some(c) =>
        if c.apiKey == "" then Stop(scene, Error, "API key not set in preferences")
        else
          var request := ImageRequestFor(c, scene.imagePath, StyleName(scene.style), scene.quality,
                                         FormatName(scene.outputFormat), scene.backgroundRemoval);
          // The client opens the file before it posts anything.
          var calls := if image.Opened? then [Send(request)] else [];
          TrackSubmission(scene, ImageMode, calls, ImageSubmit(c, scene.imagePath, image, reply))
  }

  // ---------------------------------------------------------------------
  // Polling

  /** The name given to the imported object: provider, then prompt or image stem, at most 20 characters. */
  function ObjectName(scene: Scene, mode: Mode): string {
    var stem := match mode
      case TextMode => ReplaceChar(Take(scene.prompt, 20), ' ', '_')
      case ImageMode => Take(StemOf(BaseName(scene.imagePath)), 20);
    Lower(scene.provider) + "_" + stem
  }

  /** The download a completed poll asks for. */
  function FetchFor(scene: Scene, mode: Mode, url: Value): Call {
    Fetch(url, Lower(scene.outputFormat), ObjectName(scene, mode))
  }

  /**
   One timer tick of `_poll_status` in the operator started in `mode`. A
   download's own failure is caught inside the operator, so it does not
   change the tick's result; the scene is never written.
   */
  datatype Tick = Tick(calls: seq<Call>, ret: Ret, failure: Option<Value>)

  /** What a tick does with the client's answer, after making `calls`. */
  function AfterPoll(scene: Scene, mode: Mode, calls: seq<Call>, polled: PollReply): Tick {
    match polled
    case PollCrashed(reason) => Tick(calls, Ret.Raised(reason), None)
    case Polled(res) =>
      if res.status == "completed" then
        var url := res.modelUrl.GetOr(Null);
        if Truthy(url) then Tick(calls + [FetchFor(scene, mode, url)], Finished, None)
        else Tick(calls, Finished, None)
      else if res.status == "failed" || res.status == "error" then
        Tick(calls, Finished, Some(res.error.GetOr(Str("Unknown error"))))
      else Tick(calls, PassThrough, None)
  }

  function PollTick(scene: Scene, prefs: Option<Prefs>, mode: Mode, reply: Exchange): (r: Tick)
    ensures |r.calls| <= 2
    ensures scene.currentJobId == "" ==> r == Tick([], Finished, None)
    ensures scene.currentJobId != "" && ProviderClient(scene, prefs).None? ==> r.calls == [] && r.ret.Raised?
    ensures scene.currentJobId != "" && ProviderClient(scene, prefs).Some? ==>
      var c := ProviderClient(scene, prefs).value;
      && |r.calls| >= 1 && r.calls[..1] == [Send(PollRequestFor(c, scene.currentJobId))]
      && (PollFor(c, scene.currentJobId, reply).PollCrashed? ==>
            r == Tick(r.calls[..1], Ret.Raised(PollFor(c, scene.currentJobId, reply).reason), None))
      && (PollFor(c, scene.currentJobId, reply).Polled? ==>
            var res := PollFor(c, scene.currentJobId, reply).result;
            && (r.ret == Finished <==> IsTerminal(res.status))
            && (r.ret != Finished ==> r.ret == PassThrough && r.calls == r.calls[..1])
            && (|r.calls| == 2 <==> res.status == "completed" && Truthy(res.modelUrl.GetOr(Null)))
            && (|r.calls| == 2 ==> r.calls[1] == FetchFor(scene, mode, res.modelUrl.value))
            && (r.failure.Some? <==> res.status == "failed" || res.status == "error")
            && (r.failure.Some? ==> r.failure.value == res.error.GetOr(Str("Unknown error"))))
  {
    var job := scene.currentJobId;
    if job == "" then Tick([], Finished, None)
    else match ProviderClient(scene, prefs)
      // `client.poll_status` on None
      case None => Tick([], Ret.Raised("AttributeError: no provider client"), None)
      case Some(c) =>
        AfterPoll(scene, mode, [Send(PollRequestFor(c, job))], PollFor(c, job, reply))
  }

  /** `modal`: only timer events poll; every other event passes through untouched. */
  function Modal(scene: Scene, prefs: Option<Prefs>, mode: Mode, isTimer: bool, reply: Exchange): (r: Tick)
    ensures !isTimer ==> r == Tick([], PassThrough, None)
    ensures isTimer ==> r == PollTick(scene, prefs, mode, reply)
  {
    if isTimer then PollTick(scene, prefs, mode, reply) else Tick([], PassThrough, None)
  }

  /** The status the vendor's reply is normalised to, when the scene has a job and a client. */
  predicate PolledStatus(scene: Scene, prefs: Option<Prefs>, reply: Exchange, status: string) {
    && scene.currentJobId != ""
    && ProviderClient(scene, prefs).Some?
    && var res := PollFor(ProviderClient(scene, prefs).value, scene.currentJobId, reply);
    && res.Polled? && res.result.status == status
  }

  /** The number of ticks the loop keeps polling for, given one reply per tick. */
  function TicksUntilStop(scene: Scene, prefs: Option<Prefs>, mode: Mode, replies: seq<Exchange>): (n: nat)
    ensures n <= |replies|
    ensures forall i :: 0 <= i < n ==> PollTick(scene, prefs, mode, replies[i]).ret == PassThrough
    ensures n < |replies| ==> PollTick(scene, prefs, mode, replies[n]).ret != PassThrough
  {
    if |replies| == 0 then 0
    else if PollTick(scene, prefs, mode, replies[0]).ret != PassThrough then 0
    else
      var rest := TicksUntilStop(scene, prefs, mode, replies[1..]);
      assert forall i :: 1 <= i < |replies| ==> replies[1..][i - 1] == replies[i];
      1 + rest
  }

  /** A tick finishes exactly when the reply normalises to a terminal status, and otherwise keeps polling. */
  lemma StatusDecidesTick(scene: Scene, prefs: Option<Prefs>, mode: Mode, reply: Exchange, s: string)
    requires PolledStatus(scene, prefs, reply, s)
    ensures IsTerminal(s) ==> PollTick(scene, prefs, mode, reply).ret == Finished
    ensures !IsTerminal(s) ==> PollTick(scene, prefs, mode, reply).ret == PassThrough
  {
    var c := ProviderClient(scene, prefs).value;
    assert PollFor(c, scene.currentJobId, reply).result.status == s;
  }

  /** The loop keeps polling through the ticks that pass through and stops at the first that does not. */
  lemma {:induction false} TicksStopAtFirstFinish(scene: Scene, prefs: Option<Prefs>, mode: Mode,
                                                  replies: seq<Exchange>, k: nat)
    requires k < |replies|
    requires forall i :: 0 <= i < k ==> PollTick(scene, prefs, mode, replies[i]).ret == PassThrough
    requires PollTick(scene, prefs, mode, replies[k]).ret != PassThrough
    ensures TicksUntilStop(scene, prefs, mode, replies) == k
    decreases k
  {
    if k > 0 {
      forall i | 0 <= i < k - 1 ensures PollTick(scene, prefs, mode, replies[1..][i]).ret == PassThrough {
        assert replies[1..][i] == replies[i + 1];
      }
      assert replies[1..][k - 1] == replies[k];
      TicksStopAtFirstFinish(scene, prefs, mode, replies[1..], k - 1);
    }
  }

  /**
   Polling a sequence of replies stops at the first one that normalises to a
   terminal status, and never earlier: every reply before it is a job still
   running under a non-terminal status.
   */
  lemma PollingStopsAtFirstTerminal(scene: Scene, prefs: Option<Prefs>, mode: Mode, replies: seq<Exchange>, k: nat)
    requires k < |replies|
    requires forall i :: 0 <= i < k ==> exists s :: PolledStatus(scene, prefs, replies[i], s) && !IsTerminal(s)
    requires exists s :: PolledStatus(scene, prefs, replies[k], s) && IsTerminal(s)
    ensures TicksUntilStop(scene, prefs, mode, replies) == k
    ensures PollTick(scene, prefs, mode, replies[k]).ret == Finished
  {
    forall i | 0 <= i < k ensures PollTick(scene, prefs, mode, replies[i]).ret == PassThrough {
      var s :| PolledStatus(scene, prefs, replies[i], s) && !IsTerminal(s);
      StatusDecidesTick(scene, prefs, mode, replies[i], s);
    }
    var s :| PolledStatus(scene, prefs, replies[k], s) && IsTerminal(s);
    StatusDecidesTick(scene, prefs, mode, replies[k], s);
    TicksStopAtFirstFinish(scene, prefs, mode, replies, k);
  }

  /**
   The job a successful text submission stores is the job the next timer
   tick polls, through the same provider's client.
   */
  lemma SubmittedJobIsPolled(scene: Scene, prefs: Option<Prefs>, reply: Exchange, next: Exchange)
    requires GenerateText(scene, prefs, reply).ret == RunningModal
    ensures var c := ProviderClient(scene, prefs).value;
      && TextSubmit(c, reply) == Submitted(Str(GenerateText(scene, prefs, reply).scene.currentJobId))
      && var t := PollTick(GenerateText(scene, prefs, reply).scene, prefs, TextMode, next);
      && |t.calls| >= 1
      && t.calls[0] == Send(PollRequestFor(c, GenerateText(scene, prefs, reply).scene.currentJobId))
  {
    var after := GenerateText(scene, prefs, reply).scene;
    assert after.provider == scene.provider && after.currentJobId != "";
    assert ProviderClient(after, prefs) == ProviderClient(scene, prefs);
    var t := PollTick(after, prefs, TextMode, next);
    assert t.calls[..1][0] == t.calls[0];
  }

  /**
   The job a successful image submission stores is the job the next timer
   tick polls, through the same provider's client.
   */
  lemma SubmittedImageJobIsPolled(scene: Scene, prefs: Option<Prefs>, files: set<string>, image: ImageOpen,
                                  reply: Exchange, next: Exchange)
    requires GenerateImage(scene, prefs, files, image, reply).ret == RunningModal
    ensures var c := ProviderClient(scene, prefs).value;
      var after := GenerateImage(scene, prefs, files, image, reply).scene;
      && image.Opened?
      && ImageSubmit(c, scene.imagePath, image, reply) == Submitted(Str(after.currentJobId))
      && var t := PollTick(after, prefs, ImageMode, next);
      && |t.calls| >= 1
      && t.calls[0] == Send(PollRequestFor(c, after.currentJobId))
  {
    var after := GenerateImage(scene, prefs, files, image, reply).scene;
    assert after.provider == scene.provider && after.currentJobId != "";
    assert ProviderClient(after, prefs) == ProviderClient(scene, prefs);
    var t := PollTick(after, prefs, ImageMode, next);
    assert t.calls[..1][0] == t.calls[0];
  }

  /**
   An image the client cannot open contacts no provider and starts nothing:
   a missing file is reported, any other failure to open escapes the operator.
   */
  lemma UnopenedImageMakesNoCall(scene: Scene, prefs: Option<Prefs>, files: set<string>, image: ImageOpen, reply: Exchange)
    requires !image.Opened?
    ensures var r := GenerateImage(scene, prefs, files, image, reply);
      && r.calls == [] && r.scene == scene
      && (scene.imagePath != "" && scene.imagePath in files && ProviderClient(scene, prefs).Some?
          && ProviderClient(scene, prefs).value.apiKey != "" ==>
            if image.NotFound? then r.report == Some(Report(Error, "Image file not found: " + scene.imagePath, None)) && r.ret == Finished
            else r.ret == Ret.Raised(image.reason))
  {
    if scene.imagePath != "" && scene.imagePath in files && ProviderClient(scene, prefs).Some? {
      var c := ProviderClient(scene, prefs).value;
      if c.apiKey != "" {
        var submit := ImageSubmit(c, scene.imagePath, image, reply);
        assert submit == if image.NotFound? then SubmitFailed("Image file not found: " + scene.imagePath)
                         else SubmitCrashed(image.reason);
      }
    }
  }

  /** A poll normalised to "completed" with a URL ends the loop and downloads that URL. */
  lemma CompletedPollFetches(scene: Scene, prefs: Option<Prefs>, mode: Mode, reply: Exchange, url: Value)
    requires scene.currentJobId != "" && ProviderClient(scene, prefs).Some? && Truthy(url)
    requires PollFor(ProviderClient(scene, prefs).value, scene.currentJobId, reply)
          == Polled(PollResult(scene.currentJobId, "completed", Some(url), None))
    ensures PollTick(scene, prefs, mode, reply).ret == Finished
    ensures PollTick(scene, prefs, mode, reply).calls[1..] == [FetchFor(scene, mode, url)]
  {
    var t := PollTick(scene, prefs, mode, reply);
    assert |t.calls| == 2;
  }

  /** A Meshy answer for a finished task with one model URL. */
  function MeshySucceeded(url: string): Exchange {
    Answered(Obj(map["result" := Obj(map["status" := Str("SUCCEEDED"), "model_urls" := Arr([Str(url)])])]))
  }

  /**
   As written, a Meshy task the vendor reports as SUCCEEDED never ends the
   polling loop: the tick sees "succeeded", which is not terminal, polls
   again on the next tick and never downloads the model.
   */
  lemma MeshySucceededStallsPolling(scene: Scene, prefs: Prefs, mode: Mode, url: string)
    requires scene.currentJobId != "" && scene.provider == "MESHY"
    ensures var c := ProviderClient(scene, Some(prefs)).value;
      PollTick(scene, Some(prefs), mode, MeshySucceeded(url)) == Tick([Send(PollRequestFor(c, scene.currentJobId))], PassThrough, None)
  {
    Meshy.SucceededIsNotRenamed(scene.currentJobId, url);
    assert ProviderClient(scene, Some(prefs)).value.provider == Meshy;
  }

  /**
   With the corrected Meshy client answering the poll, the same tick ends
   the loop and downloads the job's model.
   */
  lemma MeshySucceededEndsPolling(scene: Scene, prefs: Prefs, mode: Mode, url: string)
    requires scene.currentJobId != "" && scene.provider == "MESHY" && url != ""
    ensures var c := ProviderClient(scene, Some(prefs)).value;
      var calls := [Send(PollRequestFor(c, scene.currentJobId))];
      AfterPoll(scene, mode, calls, Meshy.Poll(scene.currentJobId, MeshySucceeded(url)))
        == Tick(calls + [FetchFor(scene, mode, Str(url))], Finished, None)
  {
    Meshy.SucceededIsCompleted(scene.currentJobId, url);
    assert Truthy(Str(url));
  }

  // ---------------------------------------------------------------------
  // Check Status, Cancel, Test Provider

  /** The operator a stored generation type names: "text", or the image operator for anything else. */
  function ModeOf(generationType: string): (m: Mode)
    ensures m == TextMode <==> generationType == "text"
  {
    if generationType == "text" then TextMode else ImageMode
  }

  /** `AI3DCheckStatus.execute`: one poll, reported, with a download when completed. */
  function CheckStatus(scene: Scene, prefs: Option<Prefs>, reply: Exchange): (r: Outcome)
    ensures r.scene == scene
    ensures scene.currentJobId == "" ==> r == Stop(scene, Warning, "No active generation job")
    ensures scene.currentJobId != "" && ProviderClient(scene, prefs).None? ==> r == Stop(scene, Error, "Provider not configured")
    ensures r.ret != Finished ==> r.ret.Raised?
    ensures PolledStatus(scene, prefs, reply, "completed") ==>
      r.report == Some(Report(Info, "Generation completed! Importing model...", None))
    ensures |r.calls| == 2 <==>
      PolledStatus(scene, prefs, reply, "completed")
      && Truthy(PollFor(ProviderClient(scene, prefs).value, scene.currentJobId, reply).result.modelUrl.GetOr(Null))
    ensures |r.calls| == 2 ==>
      r.calls[1] == FetchFor(scene, ModeOf(scene.generationType),
                             PollFor(ProviderClient(scene, prefs).value, scene.currentJobId, reply).result.modelUrl.value)
    ensures (PolledStatus(scene, prefs, reply, "failed") || PolledStatus(scene, prefs, reply, "error")) ==>
      var res := PollFor(ProviderClient(scene, prefs).value, scene.currentJobId, reply).result;
      r.report == Some(Report(Error, "Generation failed: ", Some(res.error.GetOr(Str("Unknown error")))))
    ensures forall s :: PolledStatus(scene, prefs, reply, s) && (s == "pending" || s == "processing") ==>
      r.report == Some(Report(Info, "Generation in progress... (" + s + ")", None))
    ensures forall s :: PolledStatus(scene, prefs, reply, s) && s !in {"completed", "pending", "processing", "failed", "error"} ==>
      r.report == Some(Report(Info, "Status: " + s, None))
  {
    var job := scene.currentJobId;
    if job == "" then Stop(scene, Warning, "No active generation job")
    else match ProviderClient(scene, prefs)
      case None => Stop(scene, Error, "Provider not configured")
      case Some(c) =>
        var calls := [Send(PollRequestFor(c, job))];
        match PollFor(c, job, reply)
        case PollCrashed(reason) => Outcome(scene, None, calls, Ret.Raised(reason))
        case Polled(res) => StatusReport(scene, calls, res)
  }

  /** What Check Status reports for a status the client returned, after the poll call. */
  function StatusReport(scene: Scene, calls: seq<Call>, res: PollResult): (r: Outcome)
    ensures r.scene == scene && r.ret == Finished
    ensures |r.calls| == |calls| + 1 <==> res.status == "completed" && Truthy(res.modelUrl.GetOr(Null))
    ensures |r.calls| == |calls| + 1 ==>
      r.calls == calls + [FetchFor(scene, ModeOf(scene.generationType), res.modelUrl.value)]
    ensures |r.calls| != |calls| + 1 ==> r.calls == calls
    ensures res.status == "completed" ==> r.report == Some(Report(Info, "Generation completed! Importing model...", None))
    ensures res.status == "pending" || res.status == "processing" ==>
      r.report == Some(Report(Info, "Generation in progress... (" + res.status + ")", None))
    ensures res.status == "failed" || res.status == "error" ==>
      r.report == Some(Report(Error, "Generation failed: ", Some(res.error.GetOr(Str("Unknown error")))))
    ensures res.status !in {"completed", "pending", "processing", "failed", "error"} ==>
      r.report == Some(Report(Info, "Status: " + res.status, None))
  {
    var status := res.status;
    if status == "completed" then
      var url := res.modelUrl.GetOr(Null);
      var mode := ModeOf(scene.generationType);
      Outcome(scene, Some(Report(Info, "Generation completed! Importing model...", None)),
        if Truthy(url) then calls + [FetchFor(scene, mode, url)] else calls, Finished)
    else if status == "pending" || status == "processing" then
      Outcome(scene, Some(Report(Info, "Generation in progress... (" + status + ")", None)), calls, Finished)
    else if status == "failed" || status == "error" then
      Outcome(scene, Some(Report(Error, "Generation failed: ", Some(res.error.GetOr(Str("Unknown error"))))), calls, Finished)
    else
      Outcome(scene, Some(Report(Info, "Status: " + status, None)), calls, Finished)
  }

  /**
   Check Status makes the same calls as a timer tick of the operator the
   stored generation type names, and raises when the tick does; it only
   reports instead of deciding whether the loop goes on.
   */
  lemma CheckStatusPollsLikeTick(scene: Scene, prefs: Option<Prefs>, reply: Exchange)
    ensures CheckStatus(scene, prefs, reply).calls == PollTick(scene, prefs, ModeOf(scene.generationType), reply).calls
    ensures scene.currentJobId != "" && ProviderClient(scene, prefs).Some? ==>
      (CheckStatus(scene, prefs, reply).ret.Raised? <==> PollTick(scene, prefs, ModeOf(scene.generationType), reply).ret.Raised?)
  {
  }

  /** `AI3DCancelGeneration.execute`: forget the tracked job without telling the provider. */
  function Cancel(scene: Scene): (r: Outcome)
    ensures r.scene.currentJobId == "" && r.scene.generationType == ""
    ensures r.scene == scene.(currentJobId := "", generationType := "")
    ensures r.calls == [] && r.ret == Finished
  {
    Outcome(scene.(currentJobId := "", generationType := ""), Some(Report(Info, "Generation cancelled", None)), [], Finished)
  }

  /** After Cancel, a timer tick finishes at once without polling. */
  lemma CancelStopsPolling(scene: Scene, prefs: Option<Prefs>, mode: Mode, reply: Exchange)
    ensures PollTick(Cancel(scene).scene, prefs, mode, reply) == Tick([], Finished, None)
  {
  }

  /** `AI3DTestProvider.execute`, given the answer to the probe. */
  function TestProvider(scene: Scene, prefs: Option<Prefs>, probe: Probe): (r: Outcome)
    ensures r.scene == scene && r.ret == Finished
    ensures ProviderClient(scene, prefs).None? ==> r == Stop(scene, Error, "Provider not configured")
    ensures ProviderClient(scene, prefs).Some? && ProviderClient(scene, prefs).value.apiKey == "" ==>
      r == Stop(scene, Error, "API key not set in preferences")
    ensures r.calls != [] <==> ProviderClient(scene, prefs).Some? && ProviderClient(scene, prefs).value.apiKey != ""
    ensures r.calls != [] ==>
      var c := ProviderClient(scene, prefs).value;
      && r.calls == [Send(ProbeRequestFor(c))]
      && r.report == Some(Report(if probe == Status(200) then Info else Error, ClassifyProbe(c, probe).1, None))
  {
    match ProviderClient(scene, prefs)
    case None => Stop(scene, Error, "Provider not configured")
    case Some(c) =>
      if c.apiKey == "" then Stop(scene, Error, "API key not set in preferences")
      else
        var (ok, message) := ClassifyProbe(c, probe);
        Outcome(scene, Some(Report(if ok then Info else Error, message, None)), [Send(ProbeRequestFor(c))], Finished)
  }

  // ---------------------------------------------------------------------
  // Validate API Key

  /** The checks `AI3DValidateAPIKey.execute` makes before validating: the client, or the report. */
  datatype KeyCheck = KeyReady(client: Client) | KeyRejected(report: Report)

  function CheckKey(provider: string, prefs: Option<Prefs>): (r: KeyCheck)
    ensures prefs.None? ==> r == KeyRejected(Report(Error, "Cannot access addon preferences", None))
    ensures prefs.Some? && ProviderNamed(provider).None? ==> r == KeyRejected(Report(Error, "Unknown provider", None))
    ensures r.KeyReady? <==>
      prefs.Some? && ProviderNamed(provider).Some? && !IsBlank(Credentials(prefs.value, ProviderNamed(provider).value).0)
    ensures r.KeyReady? ==>
      var p := ProviderNamed(provider).value;
      var (key, url) := Credentials(prefs.value, p);
      r.client == NewClient(p, key, url)
  {
    match prefs
    case None => KeyRejected(Report(Error, "Cannot access addon preferences", None))
    case Some(pr) =>
      match ProviderNamed(provider)
      case None => KeyRejected(Report(Error, "Unknown provider", None))
      case Some(p) =>
        var (key, url) := Credentials(pr, p);
        // `not api_key or not api_key.strip()`
        if IsBlank(key) then KeyRejected(Report(Error, provider + ": API key not set", None))
        else KeyReady(NewClient(p, key, url))
  }

  /**
   `AI3DValidateAPIKey.execute` as written: it calls `client.validate_api_key()`,
   a method no client class defines, so every key that passes the checks ends
   in an AttributeError.
   */
  function ValidateApiKeyAsWritten(scene: Scene, provider: string, prefs: Option<Prefs>): (r: Outcome)
    ensures r.scene == scene && r.calls == []
    ensures CheckKey(provider, prefs).KeyRejected? ==> r.ret == Finished
    ensures CheckKey(provider, prefs).KeyReady? ==> r.ret.Raised? && r.report.None?
  {
    match CheckKey(provider, prefs)
    case KeyRejected(report) => Outcome(scene, Some(report), [], Finished)
    case KeyReady(c) => Outcome(scene, None, [], Ret.Raised("AttributeError: client has no attribute 'validate_api_key'"))
  }

  /** With a real key, the operator as written never reaches the provider. */
  lemma ValidateApiKeyAsWrittenNeverValidates(scene: Scene)
    ensures var prefs := Some(Prefs("tsk_123", "https://platform.tripo3d.ai", "", "", "", ""));
      ValidateApiKeyAsWritten(scene, "TRIPO", prefs).ret.Raised?
  {
    var prefs := Some(Prefs("tsk_123", "https://platform.tripo3d.ai", "", "", "", ""));
    assert !IsSpace("tsk_123"[0]);
    assert CheckKey("TRIPO", prefs).KeyReady?;
  }

  /**
   `AI3DValidateAPIKey.execute` corrected to run the connection test the
   Test Provider operator runs, its verdict reported under the provider's name.
   */
  function ValidateApiKey(scene: Scene, provider: string, prefs: Option<Prefs>, probe: Probe): (r: Outcome)
    ensures r.scene == scene && r.ret == Finished
    ensures CheckKey(provider, prefs).KeyRejected? ==> r.calls == [] && r.report == Some(CheckKey(provider, prefs).report)
    ensures CheckKey(provider, prefs).KeyReady? ==>
      var c := CheckKey(provider, prefs).client;
      && r.calls == [Send(ProbeRequestFor(c))]
      && r.report == Some(Report(if probe == Status(200) then Info else Error, provider + ": " + ClassifyProbe(c, probe).1, None))
  {
    match CheckKey(provider, prefs)
    case KeyRejected(report) => Outcome(scene, Some(report), [], Finished)
    case KeyReady(c) =>
      var (ok, message) := ClassifyProbe(c, probe);
      Outcome(scene, Some(Report(if ok then Info else Error, provider + ": " + message, None)), [Send(ProbeRequestFor(c))], Finished)
  }

  /**
   For the scene's own provider and a key that is not blank, the corrected
   validation makes the same probe as Test Provider and reports the same
   verdict, prefixed with the provider's name.
   */
  lemma ValidateApiKeyAgreesWithTestProvider(scene: Scene, prefs: Prefs, probe: Probe)
    requires ProviderNamed(scene.provider).Some?
    requires !IsBlank(Credentials(prefs, ProviderNamed(scene.provider).value).0)
    ensures var v := ValidateApiKey(scene, scene.provider, Some(prefs), probe);
      var t := TestProvider(scene, Some(prefs), probe);
      && t.calls != [] && v.calls == t.calls
      && v.report.Some? && t.report.Some?
      && v.report.value.level == t.report.value.level
      && v.report.value.message == scene.provider + ": " + t.report.value.message
  {
    var key := Credentials(prefs, ProviderNamed(scene.provider).value).0;
    var i :| 0 <= i < |key| && !IsSpace(key[i]);
    assert key != "";
  }
}

=== FILE: presets.dfy ===
/**
 The presets store (`PresetsManager`) with file loading and saving stripped
 away: two lists of preset dicts, one for text and one for image presets.
 Every operation that takes a preset type works on the text list when the
 type is exactly "text" and on the image list otherwise.
 */
module Presets {
  import opened Json
  import opened Wrappers
  import opened Records

  /** `presets_data`: `{'text_presets': [...], 'image_presets': [...]}`. */
  datatype PresetsData = PresetsData(text: seq<Record>, image: seq<Record>)

  /** The data of a missing or unreadable presets file. */
  const NoPresets := PresetsData([], [])

  /** The list a preset type selects. */
  function ListFor(data: PresetsData, presetType: string): (l: seq<Record>)
    ensures presetType == "text" ==> l == data.text
    ensures presetType != "text" ==> l == data.image
  {
    if presetType == "text" then data.text else data.image
  }

  /** The data with the selected list replaced and the other list kept. */
  function WithList(data: PresetsData, presetType: string, l: seq<Record>): (r: PresetsData)
    ensures ListFor(r, presetType) == l
    ensures presetType == "text" ==> r.image == data.image
    ensures presetType != "text" ==> r.text == data.text
  {
    if presetType == "text" then data.(text := l) else data.(image := l)
  }

  /**
   Every preset has a name. `delete_preset` reads `p['name']` of every
   preset, which raises KeyError for a preset without one. Every preset the
   add-on creates has one; a merged import may add some that do not.
   */
  predicate Named(presets: seq<Record>) {
    forall i :: 0 <= i < |presets| ==> "name" in presets[i]
  }

  predicate FirstNamed(presets: seq<Record>, name: Value, i: int) {
    0 <= i < |presets| && Get(presets[i], "name") == name && forall j :: 0 <= j < i ==> Get(presets[j], "name") != name
  }

  predicate NoneNamed(presets: seq<Record>, name: Value) {
    forall j :: 0 <= j < |presets| ==> Get(presets[j], "name") != name
  }

  function HasName(name: Value): Record -> bool {
    (p: Record) => Get(p, "name") == name
  }

  /**
   The loop `for preset in presets: if preset['name'] == name` raises no
   KeyError: every preset it reads, up to and including the first match, has
   a name. Presets after the match are never read.
   */
  predicate NamesReadable(presets: seq<Record>, name: Value) {
    Named(Scanned(presets, HasName(name)))
  }

  // ---------------------------------------------------------------------
  // Creating

  /** `create_text_preset`: a record of type "text" appended to the text list, names not checked. */
  function CreateTextPreset(data: PresetsData, name: Value, prompt: Value, style: Value, quality: Value, outputFormat: Value): (r: (PresetsData, Record))
    ensures r.0.text == data.text + [r.1] && r.0.image == data.image
    ensures r.1.Keys == {"name", "type", "prompt", "style", "quality", "output_format"}
    ensures r.1["name"] == name && r.1["type"] == Str("text") && r.1["prompt"] == prompt
    ensures r.1["style"] == style && r.1["quality"] == quality && r.1["output_format"] == outputFormat
  {
    var preset := map[
      "name" := name, "type" := Str("text"), "prompt" := prompt,
      "style" := style, "quality" := quality, "output_format" := outputFormat];
    (data.(text := data.text + [preset]), preset)
  }

  /** `create_image_preset`: a record of type "image" appended to the image list, names not checked. */
  function CreateImagePreset(data: PresetsData, name: Value, style: Value, quality: Value, outputFormat: Value, backgroundRemoval: Value): (r: (PresetsData, Record))
    ensures r.0.image == data.image + [r.1] && r.0.text == data.text
    ensures r.1.Keys == {"name", "type", "style", "quality", "output_format", "background_removal"}
    ensures r.1["name"] == name && r.1["type"] == Str("image") && r.1["style"] == style
    ensures r.1["quality"] == quality && r.1["output_format"] == outputFormat && r.1["background_removal"] == backgroundRemoval
  {
    var preset := map[
      "name" := name, "type" := Str("image"), "style" := style,
      "quality" := quality, "output_format" := outputFormat, "background_removal" := backgroundRemoval];
    (data.(image := data.image + [preset]), preset)
  }

  // ---------------------------------------------------------------------
  // Lookup, update, delete, duplicate

  /** `get_preset_by_name`: the first preset with the name in the selected list. */
  function GetPresetByName(data: PresetsData, name: Value, presetType: string): (r: Option<Record>)
    requires NamesReadable(ListFor(data, presetType), name)
    ensures r.None? <==> NoneNamed(ListFor(data, presetType), name)
    ensures r.None? ==> Named(ListFor(data, presetType))
    ensures r.Some? ==> r.value in ListFor(data, presetType) && "name" in r.value && r.value["name"] == name
    ensures forall i :: FirstNamed(ListFor(data, presetType), name, i) ==> r == Some(ListFor(data, presetType)[i])
  {
    var presets := ListFor(data, presetType);
    match FindFirst(presets, HasName(name))
    case None => None
    case Some(i) =>
      assert Scanned(presets, HasName(name))[i] == presets[i];
      Some(presets[i])
  }

  /** A preset created under a new name is what a lookup of that name finds. */
  lemma CreatedTextPresetIsFound(data: PresetsData, name: Value, prompt: Value, style: Value, quality: Value, outputFormat: Value)
    requires Named(data.text) && NoneNamed(data.text, name)
    ensures var (after, preset) := CreateTextPreset(data, name, prompt, style, quality, outputFormat);
      Named(after.text) && GetPresetByName(after, name, "text") == Some(preset)
  {
    var (after, preset) := CreateTextPreset(data, name, prompt, style, quality, outputFormat);
    assert after.text[|data.text|] == preset;
    assert FirstNamed(after.text, name, |data.text|);
  }

  /** The same for an image preset, looked up under any type other than "text". */
  lemma CreatedImagePresetIsFound(data: PresetsData, name: Value, style: Value, quality: Value, outputFormat: Value,
                                  backgroundRemoval: Value)
    requires Named(data.image) && NoneNamed(data.image, name)
    ensures var (after, preset) := CreateImagePreset(data, name, style, quality, outputFormat, backgroundRemoval);
      Named(after.image) && GetPresetByName(after, name, "image") == Some(preset)
  {
    var (after, preset) := CreateImagePreset(data, name, style, quality, outputFormat, backgroundRemoval);
    assert after.image[|data.image|] == preset;
    assert FirstNamed(after.image, name, |data.image|);
  }

  /**
   `update_preset`: the updates overlaid onto the first preset with the
   name, which is returned; no match changes nothing and gives None.
   */
  function UpdatePreset(data: PresetsData, name: Value, updates: Record, presetType: string): (r: (PresetsData, Option<Record>))
    requires NamesReadable(ListFor(data, presetType), name)
    ensures r.1.None? <==> NoneNamed(ListFor(data, presetType), name)
    ensures r.1.None? ==> r.0 == data
    ensures presetType == "text" ==> r.0.image == data.image
    ensures presetType != "text" ==> r.0.text == data.text
    ensures forall i :: FirstNamed(ListFor(data, presetType), name, i) ==>
      var old_ := ListFor(data, presetType)[i];
      && r.1.Some?
      && r.1.value.Keys == old_.Keys + updates.Keys
      && (forall k :: k in updates ==> r.1.value[k] == updates[k])
      && (forall k :: k in old_ && k !in updates ==> r.1.value[k] == old_[k])
      && ListFor(r.0, presetType) == ListFor(data, presetType)[i := r.1.value]
  {
    var presets := ListFor(data, presetType);
    match FindFirst(presets, HasName(name))
    case None => (data, None)
    case Some(i) =>
      var updated := presets[i] + updates;
      (WithList(data, presetType, presets[i := updated]), Some(updated))
  }

  /** An update that keeps the name is seen by the next lookup of that name. */
  lemma UpdateThenGetPreset(data: PresetsData, name: Value, updates: Record, presetType: string)
    requires NamesReadable(ListFor(data, presetType), name)
    requires "name" !in updates
    ensures var (after, updated) := UpdatePreset(data, name, updates, presetType);
      NamesReadable(ListFor(after, presetType), name) && GetPresetByName(after, name, presetType) == updated
  {
    var presets := ListFor(data, presetType);
    var (after, updated) := UpdatePreset(data, name, updates, presetType);
    var found := FindFirst(presets, HasName(name));
    if found.Some? {
      var i := found.value;
      assert FirstNamed(presets, name, i);
      assert FirstNamed(ListFor(after, presetType), name, i);
      var before := Scanned(presets, HasName(name));
      var scan := Scanned(ListFor(after, presetType), HasName(name));
      assert |scan| == i + 1;
      assert before[i] == presets[i];
      forall j | 0 <= j < |scan| ensures "name" in scan[j] {
        if j < i {
          assert scan[j] == before[j];
        }
      }
    }
  }

  /** `delete_preset`: every preset with the name leaves the selected list; the other list is untouched. */
  function DeletePreset(data: PresetsData, name: Value, presetType: string): (r: PresetsData)
    requires Named(ListFor(data, presetType))
    ensures presetType == "text" ==> r.image == data.image
    ensures presetType != "text" ==> r.text == data.text
    ensures SubsequenceOf(ListFor(r, presetType), ListFor(data, presetType))
    ensures forall p :: p in ListFor(r, presetType) <==> p in ListFor(data, presetType) && p["name"] != name
    ensures forall p :: multiset(ListFor(r, presetType))[p] == if Get(p, "name") != name then multiset(ListFor(data, presetType))[p] else 0
    ensures Named(ListFor(r, presetType)) && NoneNamed(ListFor(r, presetType), name)
  {
    WithList(data, presetType, Unnamed(ListFor(data, presetType), name))
  }

  /** The list comprehension of `delete_preset`: the presets whose name differs. */
  function Unnamed(presets: seq<Record>, name: Value): (kept: seq<Record>)
    requires Named(presets)
    ensures SubsequenceOf(kept, presets)
    ensures forall p :: p in kept <==> p in presets && p["name"] != name
    ensures forall p :: multiset(kept)[p] == if Get(p, "name") != name then multiset(presets)[p] else 0
    ensures Named(kept) && NoneNamed(kept, name)
  {
    var kept := Filter(presets, (p: Record) => Get(p, "name") != name);
    assert forall j :: 0 <= j < |kept| ==> kept[j] in kept;
    kept
  }

  /**
   `duplicate_preset`: a copy of the first preset with the name, renamed,
   appended to the same list and returned; None when there is no such preset.
   */
  function DuplicatePreset(data: PresetsData, name: Value, newName: Value, presetType: string): (r: (PresetsData, Option<Record>))
    requires NamesReadable(ListFor(data, presetType), name)
    ensures r.1.None? <==> NoneNamed(ListFor(data, presetType), name)
    ensures r.1.None? ==> r.0 == data
    ensures presetType == "text" ==> r.0.image == data.image
    ensures presetType != "text" ==> r.0.text == data.text
    ensures r.1.Some? ==> ListFor(r.0, presetType) == ListFor(data, presetType) + [r.1.value]
    ensures forall i :: FirstNamed(ListFor(data, presetType), name, i) ==>
      var original := ListFor(data, presetType)[i];
      && r.1 == Some(original["name" := newName])
      && r.1.value.Keys == original.Keys
      && forall k :: k in original && k != "name" ==> r.1.value[k] == original[k]
  {
    match GetPresetByName(data, name, presetType)
    case None => (data, None)
    case Some(original) =>
      var copy := original["name" := newName];
      var presets := ListFor(data, presetType);
      (WithList(data, presetType, presets + [copy]), Some(copy))
  }

  /** A copy made under a name no preset has yet is what a lookup of that name finds. */
  lemma DuplicateThenGet(data: PresetsData, name: Value, newName: Value, presetType: string)
    requires Named(ListFor(data, presetType)) && NoneNamed(ListFor(data, presetType), newName)
    requires !NoneNamed(ListFor(data, presetType), name)
    ensures var (after, copy) := DuplicatePreset(data, name, newName, presetType);
      && Named(ListFor(after, presetType))
      && copy.Some? && GetPresetByName(after, newName, presetType) == copy
  {
    var presets := ListFor(data, presetType);
    var (after, copy) := DuplicatePreset(data, name, newName, presetType);
    var i := FindFirst(presets, HasName(name)).value;
    assert FirstNamed(presets, name, i);
    assert ListFor(after, presetType)[|presets|] == copy.value;
    assert FirstNamed(ListFor(after, presetType), newName, |presets|);
  }

  /** Deleting a name and then looking it up finds nothing. */
  lemma DeletedPresetIsGone(data: PresetsData, name: Value, presetType: string)
    requires Named(ListFor(data, presetType))
    ensures var after := DeletePreset(data, name, presetType);
      Named(ListFor(after, presetType)) && GetPresetByName(after, name, presetType).None?
  {
  }

  // ---------------------------------------------------------------------
  // Import

  /**
   A presets file that could be read as a dict: each list is None when its
   key is absent.
   */
  datatype ImportedFile = ImportedFile(text: Option<seq<Record>>, image: Option<seq<Record>>)

  /**
   `import_presets`: `None` is a file that could not be read or parsed, which
   the code reports and ignores. With `merge` the imported lists go after the
   existing ones, a missing key adding nothing; without it the imported data
   replaces everything.
   */
  function ImportPresets(data: PresetsData, imported: Option<ImportedFile>, merge: bool): (r: PresetsData)
    ensures imported.None? ==> r == data
    ensures imported.Some? && merge ==>
      && |r.text| == |data.text| + |imported.value.text.GetOr([])|
      && |r.image| == |data.image| + |imported.value.image.GetOr([])|
      && r.text[..|data.text|] == data.text && r.text[|data.text|..] == imported.value.text.GetOr([])
      && r.image[..|data.image|] == data.image && r.image[|data.image|..] == imported.value.image.GetOr([])
    ensures imported.Some? && !merge ==>
      r.text == imported.value.text.GetOr([]) && r.image == imported.value.image.GetOr([])
  {
    match imported
    case None => data
    case Some(file) =>
      if merge then PresetsData(data.text + file.text.GetOr([]), data.image + file.image.GetOr([]))
      else PresetsData(file.text.GetOr([]), file.image.GetOr([]))
  }

  /**
   A lookup stops at its first match, so the presets a merge appends are
   never read, whether they have a name or not: a name found before the
   merge is found, as the same preset, after it.
   */
  lemma MergeKeepsFoundPreset(data: PresetsData, name: Value, file: ImportedFile)
    requires NamesReadable(data.text, name) && !NoneNamed(data.text, name)
    ensures var after := ImportPresets(data, Some(file), true);
      && NamesReadable(after.text, name)
      && GetPresetByName(after, name, "text") == GetPresetByName(data, name, "text")
  {
    var after := ImportPresets(data, Some(file), true);
    var i := FindFirst(data.text, HasName(name)).value;
    assert FirstNamed(data.text, name, i);
    assert forall j :: 0 <= j <= i ==> after.text[j] == data.text[j];
    assert FirstNamed(after.text, name, i);
    var before := Scanned(data.text, HasName(name));
    var scan := Scanned(after.text, HasName(name));
    assert |scan| == i + 1;
    forall j | 0 <= j < |scan| ensures "name" in scan[j] {
      assert scan[j] == before[j];
    }
  }

  /** Merging a file that holds no presets leaves the presets as they were. */
  lemma MergingNothingChangesNothing(data: PresetsData)
    ensures ImportPresets(data, Some(ImportedFile(None, None)), true) == data
    ensures ImportPresets(data, Some(ImportedFile(Some([]), Some([]))), true) == data
  {
    assert data.text + [] == data.text && data.image + [] == data.image;
  }
}

=== FILE: provider_base.dfy ===
/**
 What the three vendor clients share: the client record built by the base
 class constructor, the shapes of a vendor exchange and of the normalised
 results, the quality tiering two vendors apply, and the classification of a
 connection test.

 HTTP itself is not modelled. A call the client makes is described by a
 `Request`; what came back is an input: an `Exchange` (the decoded JSON body,
 or the `requests` exception that was raised) for submissions and polls, a
 `Probe` (the status code, or the exception) for connection tests.
 */
module ProviderBase {
  import opened Json
  import opened Text
  import opened Wrappers

  datatype Provider = Tripo | Meshy | ModelsLab

  /** The vendor name the clients put into their messages. */
  function VendorName(p: Provider): string {
    match p
    case Tripo => "Tripo"
    case Meshy => "Meshy"
    case ModelsLab => "ModelsLab"
  }

  /** A constructed client: the API key as given, the base URL without trailing slashes. */
  datatype Client = Client(provider: Provider, apiKey: string, baseUrl: string)

  /** `BaseProviderClient.__init__`. */
  function NewClient(p: Provider, apiKey: string, baseUrl: string): (c: Client)
    ensures c.provider == p
    ensures c.apiKey == apiKey
    ensures StartsWith(baseUrl, c.baseUrl)
    ensures forall i :: |c.baseUrl| <= i < |baseUrl| ==> baseUrl[i] == '/'
    ensures |c.baseUrl| == 0 || c.baseUrl[|c.baseUrl| - 1] != '/'
  {
    Client(p, apiKey, RStrip(baseUrl, '/'))
  }

  /** Building a client from an already normalised URL keeps that URL. */
  lemma NewClientIdempotent(p: Provider, apiKey: string, baseUrl: string)
    ensures NewClient(p, apiKey, NewClient(p, apiKey, baseUrl).baseUrl) == NewClient(p, apiKey, baseUrl)
  {
    RStripIdempotent(baseUrl, '/');
  }

  /** The normalised URL is exactly what remains after cutting the trailing slashes. */
  lemma {:induction false} NewClientCutsOnlySlashes(p: Provider, apiKey: string, baseUrl: string, n: nat)
    requires n <= |baseUrl|
    requires forall i :: |baseUrl| - n <= i < |baseUrl| ==> baseUrl[i] == '/'
    requires n == |baseUrl| || baseUrl[|baseUrl| - n - 1] != '/'
    ensures NewClient(p, apiKey, baseUrl).baseUrl == baseUrl[..|baseUrl| - n]
    decreases n
  {
    if n > 0 {
      var shorter := baseUrl[..|baseUrl| - 1];
      assert baseUrl[|baseUrl| - 1] == '/';
      NewClientCutsOnlySlashes(p, apiKey, shorter, n - 1);
      assert shorter[..|shorter| - (n - 1)] == baseUrl[..|baseUrl| - n];
    }
  }

  // ---------------------------------------------------------------------
  // Requests and what comes back

  datatype Verb = GET | POST

  /**
   One HTTP call: the URL, the bearer token of the Authorization header, the
   JSON or form fields, and the path of the image uploaded with it, if any.
   */
  datatype Request = Request(verb: Verb, url: string, bearer: string, fields: Record, upload: Option<string>)

  /** A `requests` exception, with the text `str(e)` gives. */
  datatype RequestError = ConnectionError(text: string) | OtherRequestError(text: string)

  /** The outcome of a call whose status is checked with `raise_for_status`. */
  datatype Exchange = Answered(body: Value) | Raised(err: RequestError)

  /** The outcome of a connection test, whose status code is inspected directly. */
  datatype Probe = Status(code: int) | ProbeRaised(err: RequestError)

  /**
   The dict `generate_text` / `generate_image` return: a job id with status
   "pending", or an error message with job id None. `SubmitCrashed` stands for
   an exception the client does not catch.
   */
  datatype Submit = Submitted(jobId: Value) | SubmitFailed(error: string) | SubmitCrashed(reason: string)

  /**
   What opening the image for upload did: `open` succeeded, raised
   FileNotFoundError (which the clients report), or raised another error,
   such as IsADirectoryError or PermissionError, which the clients let
   escape.
   */
  datatype ImageOpen = Opened | NotFound | OpenRaised(reason: string)

  /** The normalised dict `poll_status` returns. */
  datatype PollResult = PollResult(jobId: string, status: string, modelUrl: Option<Value>, error: Option<Value>)

  datatype PollReply = Polled(result: PollResult) | PollCrashed(reason: string)

  /** The statuses after which the operators stop polling. */
  predicate IsTerminal(status: string) {
    status == "completed" || status == "failed" || status == "error"
  }

  /** `data.get("status", "unknown").lower()`: None when the status is not a string. */
  function StatusOf(d: Record): (r: Option<string>)
    ensures "status" !in d ==> r == Some("unknown")
    ensures "status" in d && d["status"].Str? ==> r == Some(Lower(d["status"].s))
    ensures "status" in d && !d["status"].Str? ==> r == None
  {
    if "status" !in d then Some("unknown")
    else match d["status"]
      case Str(s) => Some(Lower(s))
      case _ => None
  }

  /** The result of a poll whose request raised. */
  function PollError(jobId: string, err: RequestError): (r: PollResult)
    ensures r.jobId == jobId && r.status == "error" && r.modelUrl == None
    ensures r.error == Some(Str("Poll error: " + err.text))
  {
    PollResult(jobId, "error", None, Some(Str("Poll error: " + err.text)))
  }

  /**
   The body of `poll_status` in the clients whose status sits at the top
   level of the response (Tripo and ModelsLab): the status is lowercased,
   "succeeded" is reported as "completed" with the asset URL read from
   `model_url` or else from `fallbackKey`, and "failed"/"error" carry the
   vendor's `error_message`.
   */
  function FlatPoll(jobId: string, reply: Exchange, fallbackKey: string): (r: PollReply)
    ensures reply.Raised? ==> r == Polled(PollError(jobId, reply.err))
    ensures reply.Answered? ==> (r.PollCrashed? <==> !reply.body.Obj? || StatusOf(reply.body.fields).None?)
    ensures r.Polled? ==> r.result.jobId == jobId && r.result.status != "succeeded"
    ensures reply.Answered? && r.Polled? ==>
      var st := StatusOf(reply.body.fields).value;
      && (r.result.status == "completed" <==> st == "completed" || st == "succeeded")
      && (st != "succeeded" ==> r.result.status == st)
      && (r.result.modelUrl.Some? ==> r.result.status == "completed" && Truthy(r.result.modelUrl.value))
      && (r.result.error.Some? <==> st == "failed" || st == "error")
      && (r.result.error.Some? ==> r.result.error.value == GetOr(reply.body.fields, "error_message", Str("Unknown error")))
  {
    match reply
    case Raised(err) => Polled(PollError(jobId, err))
    case Answered(body) =>
      if !body.Obj? then PollCrashed("AttributeError: response body is not an object")
      else
        var d := body.fields;
        match StatusOf(d)
        case None => PollCrashed("AttributeError: status is not a string")
        case Some(status) =>
          if status == "completed" || status == "succeeded" then
            var url := Or(Get(d, "model_url"), Get(d, fallbackKey));
            Polled(PollResult(jobId, "completed", if Truthy(url) then Some(url) else None, None))
          else if status == "failed" || status == "error" then
            Polled(PollResult(jobId, status, None, Some(GetOr(d, "error_message", Str("Unknown error")))))
          else
            Polled(PollResult(jobId, status, None, None))
  }

  // ---------------------------------------------------------------------
  // Parameter mapping

  /** `style_mapping.get(style, style)`, written out in every client. */
  function StyleFor(style: string): (r: string)
    ensures r == style
  {
    var mapping := map["cartoon" := "cartoon", "realistic" := "realistic", "clay" := "clay", "sci-fi" := "sci-fi"];
    if style in mapping then mapping[style] else style
  }

  /** `quality_mapping.get(quality, "medium")` of the Meshy and ModelsLab clients. */
  function QualityTier(quality: int): (tier: string)
    ensures 1 <= quality <= 3 ==> tier == "low"
    ensures 4 <= quality <= 6 ==> tier == "medium"
    ensures 7 <= quality <= 9 ==> tier == "high"
    ensures quality == 10 ==> tier == "ultra"
    ensures quality < 1 || quality > 10 ==> tier == "medium"
  {
    var mapping := map[
      1 := "low", 2 := "low", 3 := "low",
      4 := "medium", 5 := "medium", 6 := "medium",
      7 := "high", 8 := "high", 9 := "high", 10 := "ultra"];
    if quality in mapping then mapping[quality] else "medium"
  }

  /** The order of the tiers. */
  function TierRank(tier: string): nat {
    if tier == "low" then 0
    else if tier == "medium" then 1
    else if tier == "high" then 2
    else 3
  }

  /** On the slider range 1..10, a higher quality never gets a lower tier. */
  lemma QualityTierMonotonic(q1: int, q2: int)
    requires 1 <= q1 <= q2 <= 10
    ensures TierRank(QualityTier(q1)) <= TierRank(QualityTier(q2))
  {
  }

  // ---------------------------------------------------------------------
  // Connection test

  /** The `test_connection` result for a probe of the client's user endpoint. */
  function ClassifyProbe(c: Client, probe: Probe): (r: (bool, string))
    ensures r.0 <==> probe == Status(200)
    ensures probe == Status(401) ==> r.1 == "Invalid " + VendorName(c.provider) + " API key"
    ensures probe.Status? && probe.code != 200 && probe.code != 401 ==>
      r.1 == VendorName(c.provider) + " API error: " + IntText(probe.code)
    ensures probe.ProbeRaised? && probe.err.ConnectionError? ==>
      r.1 == "Cannot connect to " + VendorName(c.provider) + " API: " + c.baseUrl
    ensures probe.ProbeRaised? && probe.err.OtherRequestError? ==>
      r.1 == VendorName(c.provider) + " connection error: " + probe.err.text
  {
    var name := VendorName(c.provider);
    match probe
    case Status(code) =>
      if code == 200 then (true, name + " connection successful!")
      else if code == 401 then (false, "Invalid " + name + " API key")
      else (false, name + " API error: " + IntText(code))
    case ProbeRaised(ConnectionError(_)) => (false, "Cannot connect to " + name + " API: " + c.baseUrl)
    case ProbeRaised(OtherRequestError(text)) => (false, name + " connection error: " + text)
  }

  /** The kind of outcome a connection test distinguishes. */
  function ProbeClass(probe: Probe): nat {
    match probe
    case Status(code) => if code == 200 then 0 else if code == 401 then 1 else 2
    case ProbeRaised(ConnectionError(_)) => 3
    case ProbeRaised(OtherRequestError(_)) => 4
  }

  /**
   The message tells the outcomes apart: two probes of different kinds never
   give the same message, and two rejected status codes give the same message
   only when they are the same code.
   */
  lemma ProbeMessagesDistinguish(c: Client, p1: Probe, p2: Probe)
    requires ClassifyProbe(c, p1) == ClassifyProbe(c, p2)
    ensures ProbeClass(p1) == ProbeClass(p2)
    ensures ProbeClass(p1) == 2 ==> p1 == p2
  {
    var name := VendorName(c.provider);
    var m := ClassifyProbe(c, p1).1;
    forall p | ClassifyProbe(c, p).1 == m
      ensures ProbeClass(p) == 1 ==> m[0] == 'I'
      ensures ProbeClass(p) == 3 ==> m[0] == 'C'
      ensures ProbeClass(p) == 2 || ProbeClass(p) == 4 ==> m[0] == name[0] && |m| > |name| + 1
      ensures ProbeClass(p) == 2 ==> m[|name| + 1] == 'A'
      ensures ProbeClass(p) == 4 ==> m[|name| + 1] == 'c'
    {
    }
    assert name[0] != 'I' && name[0] != 'C';
    if ProbeClass(p1) == 2 {
      var prefix := name + " API error: ";
      assert IntText(p1.code) == m[|prefix|..];
      assert IntText(p2.code) == m[|prefix|..];
      IntTextInjective(p1.code, p2.code);
    }
  }
}

=== FILE: records.dfy ===
/**
 The list operations the three in-memory stores (history, batch queue,
 presets) are built from: list comprehensions that filter, the
 "first element that matches" loop, and counting into a dict.
 */
module Records {
  import opened Wrappers

  /** `a` is `b` with some elements left out and the rest in the same order. */
  predicate SubsequenceOf<T(==)>(a: seq<T>, b: seq<T>)
    decreases |b|
  {
    if |a| == 0 then true
    else if |b| == 0 then false
    else (a[0] == b[0] && SubsequenceOf(a[1..], b[1..])) || SubsequenceOf(a, b[1..])
  }

  /** `[x for x in s if keep(x)]`. */
  function Filter<T(!new)>(s: seq<T>, keep: T -> bool): (r: seq<T>)
    ensures |r| <= |s|
    ensures forall x :: x in r <==> x in s && keep(x)
    ensures SubsequenceOf(r, s)
    ensures forall x :: multiset(r)[x] == if keep(x) then multiset(s)[x] else 0
  {
    if |s| == 0 then []
    else
      assert s == [s[0]] + s[1..];
      if keep(s[0]) then [s[0]] + Filter(s[1..], keep)
      else Filter(s[1..], keep)
  }

  /** Filtering with a test every element passes keeps the whole list. */
  lemma {:induction false} FilterAll<T(!new)>(s: seq<T>, keep: T -> bool)
    requires forall i :: 0 <= i < |s| ==> keep(s[i])
    ensures Filter(s, keep) == s
  {
    if |s| > 0 {
      FilterAll(s[1..], keep);
    }
  }

  /** Filtering distributes over concatenation. */
  lemma {:induction false} FilterAppend<T(!new)>(a: seq<T>, b: seq<T>, keep: T -> bool)
    ensures Filter(a + b, keep) == Filter(a, keep) + Filter(b, keep)
  {
    if |a| == 0 {
      assert a + b == b;
    } else {
      var ab := a + b;
      assert ab[0] == a[0] && ab[1..] == a[1..] + b;
      FilterAppend(a[1..], b, keep);
    }
  }

  /** Three mutually exclusive tests together keep at most every element once. */
  lemma {:induction false} DisjointFiltersFit<T(!new)>(s: seq<T>, p: T -> bool, q: T -> bool, r: T -> bool)
    requires forall i :: 0 <= i < |s| ==> !(p(s[i]) && q(s[i])) && !(p(s[i]) && r(s[i])) && !(q(s[i]) && r(s[i]))
    ensures |Filter(s, p)| + |Filter(s, q)| + |Filter(s, r)| <= |s|
  {
    if |s| > 0 {
      DisjointFiltersFit(s[1..], p, q, r);
    }
  }

  /** The index of the first element that passes `test`, as a `for … if … return` loop finds it. */
  function FindFirst<T>(s: seq<T>, test: T -> bool): (r: Option<nat>)
    ensures r.Some? ==> r.value < |s| && test(s[r.value])
    ensures r.Some? ==> forall j :: 0 <= j < r.value ==> !test(s[j])
    ensures r.None? <==> forall j :: 0 <= j < |s| ==> !test(s[j])
  {
    if |s| == 0 then None
    else if test(s[0]) then Some(0)
    else match FindFirst(s[1..], test)
      case None => None
      case Some(k) => Some(k + 1)
  }

  /**
   The elements a `for … if … return` loop for `test` reads: those up to and
   including the first that passes, or all of them when none does.
   */
  function Scanned<T>(s: seq<T>, test: T -> bool): (r: seq<T>)
    ensures |r| <= |s| && forall j :: 0 <= j < |r| ==> r[j] == s[j]
    ensures FindFirst(s, test).Some? ==> |r| == FindFirst(s, test).value + 1
    ensures FindFirst(s, test).None? ==> r == s
  {
    match FindFirst(s, test)
    case Some(i) => s[..i + 1]
    case None => s
  }

  /**
   Filtering with a test that keeps every element `test` accepts does not
   change which element is found first.
   */
  lemma {:induction false} FindFirstSurvivesFilter<T(!new)>(s: seq<T>, keep: T -> bool, test: T -> bool)
    requires forall x :: test(x) ==> keep(x)
    ensures FindFirst(Filter(s, keep), test).None? <==> FindFirst(s, test).None?
    ensures FindFirst(s, test).Some? ==>
      Filter(s, keep)[FindFirst(Filter(s, keep), test).value] == s[FindFirst(s, test).value]
  {
    if |s| > 0 {
      FindFirstSurvivesFilter(s[1..], keep, test);
      var rest := Filter(s[1..], keep);
      var tail := FindFirst(s[1..], test);
      if test(s[0]) {
        assert Filter(s, keep) == [s[0]] + rest;
        assert FindFirst(s, test) == Some(0);
        assert FindFirst(Filter(s, keep), test) == Some(0);
      } else {
        assert FindFirst(s, test) == if tail.Some? then Some(tail.value + 1) else None;
        if keep(s[0]) {
          assert Filter(s, keep) == [s[0]] + rest;
          assert ([s[0]] + rest)[1..] == rest;
        } else {
          assert Filter(s, keep) == rest;
        }
      }
    }
  }

  // ---------------------------------------------------------------------
  // Counting into a dict: `counts[k] = counts.get(k, 0) + 1`

  /** A dict of counts, as key/count pairs in insertion order. */
  type Counts<K> = seq<(K, nat)>

  /** `counts.get(k, 0)`. */
  function Lookup<K(==)>(t: Counts<K>, k: K): nat {
    if |t| == 0 then 0 else if t[0].0 == k then t[0].1 else Lookup(t[1..], k)
  }

  predicate HasKey<K(==)>(t: Counts<K>, k: K) {
    exists i :: 0 <= i < |t| && t[i].0 == k
  }

  predicate DistinctKeys<K(==)>(t: Counts<K>) {
    forall i, j :: 0 <= i < j < |t| ==> t[i].0 != t[j].0
  }

  /** The sum of the counts, `sum(counts.values())`. */
  function Total<K>(t: Counts<K>): nat {
    if |t| == 0 then 0 else t[0].1 + Total(t[1..])
  }

  /** One `counts[k] = counts.get(k, 0) + 1`: a known key keeps its place, a new key goes last. */
  function Bump<K(==,!new)>(t: Counts<K>, k: K): (r: Counts<K>)
    ensures Total(r) == Total(t) + 1
    ensures Lookup(r, k) == Lookup(t, k) + 1
    ensures forall j :: j != k ==> Lookup(r, j) == Lookup(t, j)
  {
    if |t| == 0 then [(k, 1)]
    else if t[0].0 == k then [(k, t[0].1 + 1)] + t[1..]
    else [t[0]] + Bump(t[1..], k)
  }

  lemma KeysOfCons<K(!new)>(x: (K, nat), s: Counts<K>)
    ensures forall j :: HasKey([x] + s, j) <==> j == x.0 || HasKey(s, j)
  {
    var r := [x] + s;
    forall j | HasKey(r, j) && j != x.0 ensures HasKey(s, j) {
      var i :| 0 <= i < |r| && r[i].0 == j;
      assert s[i - 1].0 == j;
    }
    forall j | HasKey(s, j) ensures HasKey(r, j) {
      var i :| 0 <= i < |s| && s[i].0 == j;
      assert r[i + 1].0 == j;
    }
    assert r[0].0 == x.0;
  }

  lemma DistinctOfCons<K(!new)>(x: (K, nat), s: Counts<K>)
    ensures DistinctKeys([x] + s) <==> !HasKey(s, x.0) && DistinctKeys(s)
  {
    var r := [x] + s;
    if DistinctKeys(r) {
      forall i | 0 <= i < |s| ensures s[i].0 != x.0 {
        assert r[0].0 != r[i + 1].0;
      }
      forall i, j | 0 <= i < j < |s| ensures s[i].0 != s[j].0 {
        assert r[i + 1].0 != r[j + 1].0;
      }
    }
    if !HasKey(s, x.0) && DistinctKeys(s) {
      forall i, j | 0 <= i < j < |r| ensures r[i].0 != r[j].0 {
        if i == 0 {
          assert r[j].0 == s[j - 1].0;
        } else {
          assert r[i].0 == s[i - 1].0 && r[j].0 == s[j - 1].0;
        }
      }
    }
  }

  /** Bumping adds the key when it is new and keeps the keys distinct. */
  lemma {:induction false} BumpKeys<K(!new)>(t: Counts<K>, k: K)
    ensures forall j :: HasKey(Bump(t, k), j) <==> HasKey(t, j) || j == k
    ensures DistinctKeys(t) ==> DistinctKeys(Bump(t, k))
  {
    var r := Bump(t, k);
    if |t| == 0 {
      assert r == [(k, 1)] + [];
      KeysOfCons((k, 1), []);
    } else if t[0].0 == k {
      assert r == [(k, t[0].1 + 1)] + t[1..];
      assert t == [t[0]] + t[1..];
      KeysOfCons((k, t[0].1 + 1), t[1..]);
      KeysOfCons(t[0], t[1..]);
      DistinctOfCons((k, t[0].1 + 1), t[1..]);
      DistinctOfCons(t[0], t[1..]);
    } else {
      var rest := Bump(t[1..], k);
      BumpKeys(t[1..], k);
      assert r == [t[0]] + rest;
      assert t == [t[0]] + t[1..];
      KeysOfCons(t[0], rest);
      KeysOfCons(t[0], t[1..]);
      DistinctOfCons(t[0], rest);
      DistinctOfCons(t[0], t[1..]);
    }
  }

  /** The counts of every element of `keys`, in order of first appearance. */
  function Tally<K(==,!new)>(keys: seq<K>): (t: Counts<K>)
    ensures DistinctKeys(t)
    ensures forall k :: HasKey(t, k) <==> k in keys
  {
    if |keys| == 0 then []
    else
      var init := keys[..|keys| - 1];
      assert keys == init + [keys[|keys| - 1]];
      BumpKeys(Tally(init), keys[|keys| - 1]);
      Bump(Tally(init), keys[|keys| - 1])
  }

  /** Each count is the number of occurrences, and the counts add up to the number of elements. */
  lemma {:induction false} TallyCounts<K(!new)>(keys: seq<K>)
    ensures forall k :: Lookup(Tally(keys), k) == multiset(keys)[k]
    ensures Total(Tally(keys)) == |keys|
  {
    if |keys| > 0 {
      var init := keys[..|keys| - 1];
      TallyCounts(init);
      assert keys == init + [keys[|keys| - 1]];
      assert multiset(keys) == multiset(init) + multiset{keys[|keys| - 1]};
    }
  }

  /** `[f(x) for x in s]`. */
  function Map<T, U>(s: seq<T>, f: T -> U): (r: seq<U>)
    ensures |r| == |s|
    ensures forall i :: 0 <= i < |s| ==> r[i] == f(s[i])
  {
    if |s| == 0 then [] else [f(s[0])] + Map(s[1..], f)
  }
}

=== FILE: text.dfy ===
/**
 The Python string operations the add-on uses on prompts, URLs, statuses
 and API keys: `lower`, `rstrip`, `strip`, `in` (substring), slicing,
 `replace`, decimal formatting of an int, and `os.path.basename` /
 `os.path.splitext` on POSIX paths.
 */
module Text {

  // ---------------------------------------------------------------------
  // Case

  predicate IsUpper(c: char) {
    'A' <= c <= 'Z'
  }

  /** Lowercasing of one character; only ASCII letters change. */
  function LowerChar(c: char): (r: char)
    ensures !IsUpper(r)
    ensures !IsUpper(c) ==> r == c
  {
    if IsUpper(c) then (c as int + 32) as char else c
  }

  /** `s.lower()` restricted to ASCII. */
  function Lower(s: string): (r: string)
    ensures |r| == |s|
    ensures forall i :: 0 <= i < |r| ==> !IsUpper(r[i])
    ensures forall i :: 0 <= i < |s| && !IsUpper(s[i]) ==> r[i] == s[i]
  {
    if |s| == 0 then [] else [LowerChar(s[0])] + Lower(s[1..])
  }

  /** Lower-casing works character by character. */
  lemma {:induction false} LowerPointwise(s: string)
    ensures forall i :: 0 <= i < |s| ==> Lower(s)[i] == LowerChar(s[i])
  {
    if |s| > 0 {
      LowerPointwise(s[1..]);
      assert Lower(s) == [LowerChar(s[0])] + Lower(s[1..]);
    }
  }

  /** A string with no upper-case letter is its own lower-case form. */
  lemma {:induction false} LowerOfLower(s: string)
    requires forall i :: 0 <= i < |s| ==> !IsUpper(s[i])
    ensures Lower(s) == s
  {
    if |s| > 0 {
      LowerOfLower(s[1..]);
    }
  }

  /** Lower-casing twice is lower-casing once. */
  lemma LowerIdempotent(s: string)
    ensures Lower(Lower(s)) == Lower(s)
  {
    LowerOfLower(Lower(s));
  }

  // ---------------------------------------------------------------------
  // Substrings

  /** `sub` occurs in `s` starting at index `i`. */
  predicate OccursAt(s: string, sub: string, i: int) {
    0 <= i <= |s| - |sub| && s[i..i + |sub|] == sub
  }

  /** Python `sub in s`. */
  predicate Contains(s: string, sub: string) {
    exists i | 0 <= i <= |s| - |sub| :: OccursAt(s, sub, i)
  }

  /** `sub in s` whenever `s` is `pre + sub + post`. */
  lemma ContainsWitness(pre: string, sub: string, post: string)
    ensures Contains(pre + sub + post, sub)
  {
    var s := pre + sub + post;
    assert s[|pre|..|pre| + |sub|] == sub;
    assert OccursAt(s, sub, |pre|);
  }

  predicate StartsWith(s: string, prefix: string) {
    |prefix| <= |s| && s[..|prefix|] == prefix
  }

  // ---------------------------------------------------------------------
  // Stripping

  /** `s.rstrip(c)` for a single character `c`. */
  function RStrip(s: string, c: char): (r: string)
    ensures |r| <= |s| && r == s[..|r|]
    ensures forall i :: |r| <= i < |s| ==> s[i] == c
    ensures |r| == 0 || r[|r| - 1] != c
  {
    if |s| > 0 && s[|s| - 1] == c then RStrip(s[..|s| - 1], c) else s
  }

  /** Stripping an already stripped string changes nothing. */
  lemma RStripIdempotent(s: string, c: char)
    ensures RStrip(RStrip(s, c), c) == RStrip(s, c)
  {
  }

  /** The characters `str.strip()` removes (ASCII range of `str.isspace`). */
  predicate IsSpace(c: char) {
    c == ' ' || c == '\t' || c == '\n' || c == '\r' || c == '\U{B}' || c == '\U{C}'
    || ('\U{1C}' <= c <= '\U{1F}')
  }

  /** `not s.strip()`: the string is empty or all whitespace. */
  predicate IsBlank(s: string) {
    forall i :: 0 <= i < |s| ==> IsSpace(s[i])
  }

  // ---------------------------------------------------------------------
  // Slicing and replacing

  /** `s[:n]` for `n >= 0`. */
  function Take(s: string, n: nat): (r: string)
    ensures |r| <= n && StartsWith(s, r)
    ensures |s| >= n ==> |r| == n
    ensures |s| <= n ==> r == s
  {
    if |s| <= n then s else s[..n]
  }

  /** `s[-n:]` for `n > 0`. */
  function TakeLast(s: string, n: nat): (r: string)
    ensures |r| <= n && |r| <= |s|
    ensures r == s[|s| - |r|..]
    ensures |s| <= n ==> r == s
  {
    if |s| <= n then s else s[|s| - n..]
  }

  /** `s.replace(a, b)` for single characters. */
  function ReplaceChar(s: string, a: char, b: char): (r: string)
    ensures |r| == |s|
    ensures forall i :: 0 <= i < |s| ==> r[i] == (if s[i] == a then b else s[i])
  {
    if |s| == 0 then [] else [if s[0] == a then b else s[0]] + ReplaceChar(s[1..], a, b)
  }

  // ---------------------------------------------------------------------
  // Decimal numbers, as f-strings format an int

  function DigitChar(d: nat): (c: char)
    requires d < 10
    ensures '0' <= c <= '9'
  {
    ("0123456789")[d]
  }

  function DigitValue(c: char): (d: nat)
    requires '0' <= c <= '9'
    ensures d < 10
  {
    c as int - '0' as int
  }

  predicate AllDigits(s: string) {
    forall i :: 0 <= i < |s| ==> '0' <= s[i] <= '9'
  }

  /** The decimal digits of a natural number, without leading zeros. */
  function Decimal(n: nat): (s: string)
    ensures |s| > 0 && AllDigits(s)
    ensures |s| > 1 ==> s[0] != '0'
    decreases n
  {
    if n < 10 then [DigitChar(n)] else Decimal(n / 10) + [DigitChar(n % 10)]
  }

  /** The value of a string of decimal digits. */
  function ParseDecimal(s: string): nat
    requires AllDigits(s)
  {
    if |s| == 0 then 0 else 10 * ParseDecimal(s[..|s| - 1]) + DigitValue(s[|s| - 1])
  }

  lemma DigitRoundTrip(d: nat)
    requires d < 10
    ensures DigitValue(DigitChar(d)) == d
  {
  }

  /** Reading back the digits `Decimal` writes gives the number again. */
  lemma {:induction false} DecimalRoundTrip(n: nat)
    ensures ParseDecimal(Decimal(n)) == n
    decreases n
  {
    var s := Decimal(n);
    if n < 10 {
      DigitRoundTrip(n);
      assert s[..0] == [];
    } else {
      DecimalRoundTrip(n / 10);
      DigitRoundTrip(n % 10);
      assert s[..|s| - 1] == Decimal(n / 10);
    }
  }

  /** Python `str(i)` / `f"{i}"` for an int. */
  function IntText(i: int): (s: string)
    ensures i >= 0 ==> s == Decimal(i)
    ensures i < 0 ==> s == "-" + Decimal(-i)
  {
    if i >= 0 then Decimal(i) else "-" + Decimal(-i)
  }

  /** Distinct integers are written differently, so a message can be traced back to its code. */
  lemma IntTextInjective(i: int, j: int)
    requires IntText(i) == IntText(j)
    ensures i == j
  {
    if i >= 0 && j >= 0 {
      DecimalRoundTrip(i);
      DecimalRoundTrip(j);
    } else if i < 0 && j < 0 {
      assert Decimal(-i) == IntText(i)[1..];
      DecimalRoundTrip(-i);
      DecimalRoundTrip(-j);
    }
  }

  // ---------------------------------------------------------------------
  // POSIX paths

  /** Index just past the last `c` in `s`, or 0 when there is none. */
  function AfterLast(s: string, c: char): (k: nat)
    ensures k <= |s|
    ensures k > 0 ==> s[k - 1] == c
    ensures forall i :: k <= i < |s| ==> s[i] != c
  {
    if |s| == 0 then 0
    else if s[|s| - 1] == c then |s|
    else AfterLast(s[..|s| - 1], c)
  }

  /** `os.path.basename(p)`: the text after the last `/`. */
  function BaseName(p: string): (r: string)
    ensures forall i :: 0 <= i < |r| ==> r[i] != '/'
    ensures |r| <= |p| && r == p[|p| - |r|..]
  {
    p[AfterLast(p, '/')..]
  }

  /**
   `os.path.splitext(name)[0]` for a name without `/`: everything before the
   last dot, unless that dot belongs to the leading run of dots.
   */
  function StemOf(name: string): (r: string)
    ensures |r| <= |name| && r == name[..|r|]
  {
    var k := AfterLast(name, '.');
    if k == 0 then name
    else if forall i :: 0 <= i < k - 1 ==> name[i] == '.' then name
    else name[..k - 1]
  }
}

=== FILE: tripo.dfy ===
/**
 The Tripo client: quality and style are forwarded as given, the job id is
 read from `job_id` or else `id`, and the asset URL from `model_url` or else
 `download_url`.
 */
module Tripo {
  import opened Json
  import opened Wrappers
  import opened ProviderBase

  const DefaultBaseUrl: string := "https://platform.tripo3d.ai"

  /** The JSON request `generate_text` posts. */
  function TextRequest(c: Client, prompt: string, style: string, quality: int, outputFormat: string): (r: Request)
    ensures r.verb == POST && r.url == c.baseUrl + "/api/v1/generate" && r.bearer == c.apiKey
    ensures r.upload == None
    ensures r.fields.Keys == {"type", "prompt", "style", "quality", "output_format"}
    ensures r.fields["type"] == Str("text_to_3d") && r.fields["prompt"] == Str(prompt)
    ensures r.fields["quality"] == Int(quality)
    ensures r.fields["style"] == Str(style) && r.fields["output_format"] == Str(outputFormat)
  {
    Request(POST, c.baseUrl + "/api/v1/generate", c.apiKey,
      map["type" := Str("text_to_3d"), "prompt" := Str(prompt), "style" := Str(StyleFor(style)),
          "quality" := Int(quality), "output_format" := Str(outputFormat)],
      None)
  }

  /** The multipart request `generate_image` posts. */
  function ImageRequest(c: Client, imagePath: string, style: string, quality: int, outputFormat: string,
                        backgroundRemoval: bool): (r: Request)
    ensures r.verb == POST && r.url == c.baseUrl + "/api/v1/generate" && r.bearer == c.apiKey
    ensures r.upload == Some(imagePath)
    ensures r.fields.Keys - {"remove_background"} == {"type", "style", "quality", "output_format"}
    ensures r.fields["type"] == Str("image_to_3d") && r.fields["quality"] == Int(quality)
    ensures r.fields["style"] == Str(style) && r.fields["output_format"] == Str(outputFormat)
    ensures "remove_background" in r.fields <==> backgroundRemoval
    ensures backgroundRemoval ==> r.fields["remove_background"] == Bool(true)
  {
    var fields := map["type" := Str("image_to_3d"), "style" := Str(StyleFor(style)),
                      "quality" := Int(quality), "output_format" := Str(outputFormat)];
    Request(POST, c.baseUrl + "/api/v1/generate", c.apiKey,
      if backgroundRemoval then fields["remove_background" := Bool(true)] else fields,
      Some(imagePath))
  }

  /** The submission result read from an answered request. */
  function Accepted(body: Value): (r: Submit)
    ensures body.Obj? <==> r.Submitted?
    ensures r.Submitted? && Truthy(Get(body.fields, "job_id")) ==> r.jobId == body.fields["job_id"]
    ensures r.Submitted? && !Truthy(Get(body.fields, "job_id")) ==> r.jobId == Get(body.fields, "id")
  {
    if body.Obj? then Submitted(Or(Get(body.fields, "job_id"), Get(body.fields, "id")))
    else SubmitCrashed("AttributeError: response body is not an object")
  }

  /** `generate_text`, given what the vendor answered. */
  function GenerateText(reply: Exchange): (r: Submit)
    ensures reply.Raised? ==> r == SubmitFailed("Tripo API error: " + reply.err.text)
    ensures reply.Answered? ==> r == Accepted(reply.body)
  {
    match reply
    case Raised(err) => SubmitFailed("Tripo API error: " + err.text)
    case Answered(body) => Accepted(body)
  }

  /** `generate_image`, given what opening the image did and what the vendor answered. */
  function GenerateImage(imagePath: string, image: ImageOpen, reply: Exchange): (r: Submit)
    ensures image.NotFound? ==> r == SubmitFailed("Image file not found: " + imagePath)
    ensures image.OpenRaised? ==> r == SubmitCrashed(image.reason)
    ensures image.Opened? && reply.Raised? ==> r == SubmitFailed("Tripo API error: " + reply.err.text)
    ensures image.Opened? && reply.Answered? ==> r == Accepted(reply.body)
  {
    match image
    case NotFound => SubmitFailed("Image file not found: " + imagePath)
    // Neither FileNotFoundError nor a `requests` exception: not caught.
    case OpenRaised(reason) => SubmitCrashed(reason)
    case Opened => GenerateText(reply)
  }

  function PollRequest(c: Client, jobId: string): (r: Request)
    ensures r.verb == GET && r.url == c.baseUrl + "/api/v1/jobs/" + jobId && r.bearer == c.apiKey
  {
    Request(GET, c.baseUrl + "/api/v1/jobs/" + jobId, c.apiKey, map[], None)
  }

  /** `poll_status`: a completed job's URL comes from `model_url`, else `download_url`. */
  function Poll(jobId: string, reply: Exchange): (r: PollReply)
    ensures reply.Answered? && reply.body.Obj? && r.Polled? && r.result.status == "completed" ==>
      var url := Or(Get(reply.body.fields, "model_url"), Get(reply.body.fields, "download_url"));
      r.result.modelUrl == (if Truthy(url) then Some(url) else None)
    ensures r.Polled? && r.result.status != "completed" ==> r.result.modelUrl == None
  {
    FlatPoll(jobId, reply, "download_url")
  }

  function ProbeRequest(c: Client): (r: Request)
    ensures r.verb == GET && r.url == c.baseUrl + "/api/v1/user" && r.bearer == c.apiKey
  {
    Request(GET, c.baseUrl + "/api/v1/user", c.apiKey, map[], None)
  }
}

=== FILE: wrappers.dfy ===
/**
 Optional values, as Python's `None`-or-value returns, and results that are
 either a value or the exception that ended the call.
 */
module Wrappers {

  datatype Option<+T> = None | Some(value: T) {

    /** The value, or `default` when there is none. */
    function GetOr(default: T): (r: T)
      ensures Some? ==> r == value
      ensures None? ==> r == default
    {
      match this
      case Some(v) => v
      case None => default
    }
  }

  /** A value, or the name of the exception raised instead. */
  datatype Result<+T> = Success(value: T) | Failure(error: string)
}
